=== FILE: README.md ===
# Vernite GitHub sync core, modelled in Dafny

This project models the parts of Vernite that keep projects and tasks in step
with GitHub, together with the project entity they depend on.

- **The webhook service.** This is the signature check and the dispatcher. It
  also holds the handlers for installation, repository-removal, push, issue
  and pull-request events. The store is one immutable value:
  - installations, as a table whose rows are unique by installation id and by
    account login, so that each single-result finder has at most one row to
    return;
  - integrations, a map from repository full name to project;
  - projects;
  - tasks, keyed by project and number;
  - issue links and pull-request links, keyed by repository name and number.

  Each handler is a function from the store and a payload to a new store. The
  push handler also returns the delivery's reply.
- **The commit-message directive matcher.** It follows the leftmost match of
  `(reopen|close)?!(\d+)` as `Matcher.find()` reports it, and then
  `Long.parseLong`.
- **The server-package `Project` entity.** This covers the membership index
  `member`, `removeMember`, the trimming setters, `update`, the deprecated
  one-argument constructor with its three default lanes, and
  `getGitHubIntegration`.
- **The older `com.workflow` `Project` entity.** This covers the four-argument
  constructor, `apply`, `equals`, `hashCode` (32-bit wrap-around written out),
  `compareTo` and `getGitHubIntegration`.
- **The grouping callbacks of the client's `StatusService`.** These are
  `listWithTasks` and `board`.

Files:

| file | module |
|---|---|
| `numbers.dfy` | `JavaNumbers`: the ranges of Java's `int` and `long` |
| `seqs.dfy` | `Optional`, `Seqs`: `null` as `Option`, first-index search, order-keeping filter |
| `directive.dfy` | `CommitDirective`: the commit-message pattern and `Long.parseLong` |
| `project_entity.dfy` | `ProjectEntity`: the server-package project |
| `legacy_project.dfy` | `LegacyProject`: the older project |
| `board.dfy` | `StatusBoard`: `listWithTasks` and `board` |
| `store.dfy` | `WebhookStore`: the store, the payload, task edits, assignee resolution |
| `push.dfy` | `CommitSync`: the push handler |
| `webhook.dfy` | `GitHubWebhook`: signature, dispatcher, other handlers |
| `properties.dfy` | `SyncProperties`: properties spanning several deliveries |

`Task.changeStatus(open)` is not part of this model. It is modelled as moving
the task to an abstract begin lane when `open` and to the final lane otherwise,
which is the behaviour the repository's webhook tests expect. The HMAC is a parameter of
type `string -> string`.

Two behaviours of the code are worth stating plainly:

- A task created from an `opened` issue has the system user as its creator,
  not as its assignee. The system user is the fifth argument of the `Task`
  constructor (GitHubWebhookService.java:165). The model sets `createdBy` and
  leaves the assignee empty.
- A digit group above `Long.MAX_VALUE` makes `Long.parseLong` throw
  (GitHubWebhookService.java:141). The push then fails, and the moves made for
  the earlier commits stay saved.

## Model

| member | source | states |
|---|---|---|
| CommitDirective.DigitRun | src/main/java/com/workflow/workflow/integration/git/github/GitHubWebhookService.java:46 | the greedy `\d+`: a digit-only slice starting at the index, ended by a non-digit or the end of the message |
| CommitDirective.MatchAt | src/main/java/com/workflow/workflow/integration/git/github/GitHubWebhookService.java:46 | a match tried at one start index has a non-empty all-digit number group |
| CommitDirective.Find | src/main/java/com/workflow/workflow/integration/git/github/GitHubWebhookService.java:138-139 | `find()` reports a number group of one or more ASCII digits |
| CommitDirective.FindIsFirstBangDigit | src/main/java/com/workflow/workflow/integration/git/github/GitHubWebhookService.java:138-140 | there is no match iff no `!` is followed by a digit. Otherwise the first such `!` fixes the match: the keyword is `reopen` iff the six characters before it spell `reopen` (`close` likewise), and the number is the whole digit run after it |
| CommitDirective.NoMatchBeforeStart | src/main/java/com/workflow/workflow/integration/git/github/GitHubWebhookService.java:139 | no start index before the match's own start yields a match, so the match is leftmost |
| CommitDirective.DecimalRoundTrip | src/main/java/com/workflow/workflow/integration/git/github/GitHubWebhookService.java:141 | `Long.parseLong` of the decimal spelling of `n` gives back `n` |
| CommitDirective.DecimalValue | src/main/java/com/workflow/workflow/integration/git/github/GitHubWebhookService.java:141 | `Long.parseLong` of a digit run is 0 iff every digit is `0` |
| CommitDirective.LeadingZeroIgnored | src/main/java/com/workflow/workflow/integration/git/github/GitHubWebhookService.java:141 | a leading `0` does not change the value `Long.parseLong` reads |
| CommitDirective.ParseCommit | src/main/java/com/workflow/workflow/integration/git/github/GitHubWebhookService.java:139-141 | a message carries no directive iff the pattern does not occur. A directive names the task whose number is the decimal value of the first match's digit group, and it reopens iff the keyword group is `reopen`. The message overflows iff that value exceeds `Long.MAX_VALUE` |
| CommitDirective.NoBangNoCommand | src/main/java/com/workflow/workflow/integration/git/github/GitHubWebhookService.java:139 | a message without `!` carries no directive |
| CommitDirective.ReopenReferenceParses | src/main/java/com/workflow/workflow/integration/git/github/GitHubWebhookService.java:139-141 | `reopen!<n>` after text without `!` is a move of task `n` to the begin lane |
| CommitDirective.CloseReferenceParses | src/main/java/com/workflow/workflow/integration/git/github/GitHubWebhookService.java:139-141 | `close!<n>` after text without `!` is a move of task `n` to the final lane |
| CommitDirective.BareReferenceParses | src/main/java/com/workflow/workflow/integration/git/github/GitHubWebhookService.java:139-141 | `!<n>` after text without `!` that does not end in `reopen` is a move of task `n` to the final lane |
| ProjectEntity.Trim | packages/server/src/main/java/dev/vernite/vernite/project/Project.java:253 | `String.trim`: the result is an infix of the argument with only characters ≤ U+0020 cut from both ends, and it is empty or starts and ends with a character above U+0020 |
| ProjectEntity.TrimIdempotent | packages/server/src/main/java/dev/vernite/vernite/project/Project.java:252-264 | a trimmed value is unchanged by a second trim |
| ProjectEntity.NewProject | packages/server/src/main/java/dev/vernite/vernite/project/Project.java:180-184 | the name and description are stored trimmed; there are no members, statuses or integrations, and the task counter is 0 |
| ProjectEntity.SetName | packages/server/src/main/java/dev/vernite/vernite/project/Project.java:252-254 | stores the trimmed name and changes nothing else |
| ProjectEntity.SetDescription | packages/server/src/main/java/dev/vernite/vernite/project/Project.java:262-264 | stores the trimmed description and changes nothing else |
| ProjectEntity.Update | packages/server/src/main/java/dev/vernite/vernite/project/Project.java:200-203 | a `null` field leaves its value alone; a present field is stored trimmed; no other field changes |
| ProjectEntity.UpdateIdempotent | packages/server/src/main/java/dev/vernite/vernite/project/Project.java:200-203 | applying an update twice equals applying it once, and an all-`null` update changes nothing |
| ProjectEntity.DefaultProjectDelegates | packages/server/src/main/java/dev/vernite/vernite/project/Project.java:266-268 | the deprecated constructor is `Project(name, "")` plus its lanes: no members, counter 0, no integrations |
| ProjectEntity.DefaultProject | packages/server/src/main/java/dev/vernite/vernite/project/Project.java:266-272 | description "" and exactly three statuses "To Do", "In Progress", "Done", with ordinals 0, 1, 2. Only the first is the begin lane and only the last is the final lane |
| ProjectEntity.Member | packages/server/src/main/java/dev/vernite/vernite/project/Project.java:236-245 | the index of the first project-workspace of the user, or -1 when none belongs to the user |
| ProjectEntity.MemberFound | packages/server/src/main/java/dev/vernite/vernite/project/Project.java:236-245 | `member(user) != -1` iff some project-workspace belongs to the user |
| ProjectEntity.IsMember | packages/server/src/main/java/dev/vernite/vernite/project/Project.java:212-214 | when the user set is the join table's view of the workspace list, `isMember` agrees with `member(user) != -1` |
| ProjectEntity.RemoveFirst | packages/server/src/main/java/dev/vernite/vernite/project/Project.java:225 | `List.remove(Object)` leaves the list alone when the element is absent, and otherwise shortens it by one |
| ProjectEntity.RemoveFirstCounts | packages/server/src/main/java/dev/vernite/vernite/project/Project.java:225 | `List.remove(Object)` takes away one occurrence of the element, and every other element keeps its count |
| ProjectEntity.RemoveFirstAt | packages/server/src/main/java/dev/vernite/vernite/project/Project.java:225 | `List.remove(Object)` of an element with no equal element before it removes exactly that index |
| ProjectEntity.RemoveMember | packages/server/src/main/java/dev/vernite/vernite/project/Project.java:222-227 | returns a link iff the user has one. Without a link the project is unchanged. With one, the user's first link is returned and cut out, the rest keep their order, and re-inserting the link restores the list. Only the list changes |
| ProjectEntity.GitHubIntegration | packages/server/src/main/java/dev/vernite/vernite/project/Project.java:274-281 | `null` iff there is no integration, otherwise the first integration's repository name |
| ProjectEntity.GitHubIntegrationKept | packages/server/src/main/java/dev/vernite/vernite/project/Project.java:180-281 | a new project reports no repository; `setName`, `setDescription`, `update` and `removeMember` never change the repository reported |
| LegacyProject.NewProject | src/main/java/com/workflow/workflow/project/Project.java:74-80 | the name and the three counters are stored as given, with id 0 and no integration |
| LegacyProject.Apply | src/main/java/com/workflow/workflow/project/Project.java:94-98 | a `null` request name leaves the project unchanged; otherwise the name is replaced and nothing else changes |
| LegacyProject.ApplyNullIsEqual | src/main/java/com/workflow/workflow/project/Project.java:94-98 | applying a `null` name yields a project `equals` to the original |
| LegacyProject.Equals | src/main/java/com/workflow/workflow/project/Project.java:179-191 | holds iff the ids are equal and the names are equal, where `null` equals only `null` |
| LegacyProject.EqualsIsEquivalence | src/main/java/com/workflow/workflow/project/Project.java:179-191 | `equals` is reflexive, symmetric and transitive |
| LegacyProject.ToInt | src/main/java/com/workflow/workflow/project/Project.java:173-174 | Java's `int` wrap-around: the result is a 32-bit signed value congruent to its argument modulo 2^32 |
| LegacyProject.XorZero | src/main/java/com/workflow/workflow/project/Project.java:174 | exclusive or with zero leaves a value unchanged |
| LegacyProject.LongHash | src/main/java/com/workflow/workflow/project/Project.java:174 | `Long.hashCode` is a 32-bit signed value, and it is the id itself for ids in [0, 2^31) |
| LegacyProject.StringHash | src/main/java/com/workflow/workflow/project/Project.java:175 | `String.hashCode` is a 32-bit signed value, and a one-character string hashes to its character code |
| LegacyProject.HashCode | src/main/java/com/workflow/workflow/project/Project.java:171-177 | `hashCode` is a 32-bit signed value for every id in the `long` range |
| LegacyProject.HashCodeOfSmallProject | src/main/java/com/workflow/workflow/project/Project.java:171-177 | id 7 with name "x" hashes to 31 * (31 + 7) + 120 = 1298 |
| LegacyProject.EqualsImpliesSameHash | src/main/java/com/workflow/workflow/project/Project.java:171-191 | projects that are `equals` have equal hash codes |
| LegacyProject.StringCompare | src/main/java/com/workflow/workflow/project/Project.java:196 | when one string is a prefix of the other, `String.compareTo` is the difference of the lengths |
| LegacyProject.StringCompareAtFirstDifference | src/main/java/com/workflow/workflow/project/Project.java:196 | otherwise, `String.compareTo` is the difference of the characters at the first index where the strings differ |
| LegacyProject.StringCompareZero | src/main/java/com/workflow/workflow/project/Project.java:196 | `String.compareTo` is 0 iff the strings are equal |
| LegacyProject.StringCompareAntisymmetric | src/main/java/com/workflow/workflow/project/Project.java:196 | swapping the arguments of `String.compareTo` negates it |
| LegacyProject.StringCompareTransitive | src/main/java/com/workflow/workflow/project/Project.java:196 | `String.compareTo` is transitive on "less than" |
| LegacyProject.CompareTo | src/main/java/com/workflow/workflow/project/Project.java:193-197 | on projects with names, 0 iff `equals`; with equal names the order is the id order, otherwise it is the name order |
| LegacyProject.CompareToIsTotalOrder | src/main/java/com/workflow/workflow/project/Project.java:193-197 | on projects with names, `compareTo` is 0 iff the projects are `equals`; swapping the arguments negates it; it is transitive |
| LegacyProject.RepositoryName | src/main/java/com/workflow/workflow/project/Project.java:156-160 | the repository name iff an integration is present and not soft-deleted, `null` otherwise |
| StatusBoard.ColumnOf | src/app/tasks/services/status.service.ts:91 | the index of the first status whose id the task names, or -1 when `find` comes back `undefined` |
| StatusBoard.ListWithTasks | src/app/tasks/services/status.service.ts:63-72 | one column per status, in the order of the statuses |
| StatusBoard.ListWithTasksGroupsByStatus | src/app/tasks/services/status.service.ts:63-72 | one column per status, in order. Each column holds exactly the tasks whose `statusId` is that status's id, in input order and with their multiplicity |
| StatusBoard.ParentRowsAreTasksWithSubtasks | src/app/tasks/services/status.service.ts:83-89 | one row per task with subtasks, in task order, headed by that task |
| StatusBoard.ParentRows | src/app/tasks/services/status.service.ts:84-89 | every parent row is headed by a task with subtasks, and its columns are those subtasks grouped as `listWithTasks` groups them |
| StatusBoard.OtherColumnsPlaceEachTaskOnce | src/app/tasks/services/status.service.ts:78-96 | the OTHER row has one column per status, in order. A task without subtasks sits, in task order and as often as it occurs, in the column of the first status it names and in no other. Tasks with subtasks are in none |
| StatusBoard.OtherColumnsSnoc | src/app/tasks/services/status.service.ts:90-96 | one more task changes only the column it lands in, by appending it |
| StatusBoard.Board | src/app/tasks/services/status.service.ts:74-103 | the callback throws iff some task without subtasks names no listed status. Otherwise the result is the parent rows followed by the OTHER row, with one row more than there are tasks with subtasks |
| StatusBoard.BoardStep | src/app/tasks/services/status.service.ts:83-97 | one loop iteration extends the board and the OTHER row from a prefix of the tasks to the prefix one longer |
| WebhookStore.EditTask | src/main/java/com/workflow/workflow/integration/git/github/GitHubWebhookService.java:176-208 | saving an edit changes only the edited task, and a link whose task is gone edits nothing |
| WebhookStore.EditTaskKeepsValid | src/main/java/com/workflow/workflow/integration/git/github/GitHubWebhookService.java:176-208 | editing a task keeps the store invariant |
| WebhookStore.InstallationOf | src/main/java/com/workflow/workflow/integration/git/github/GitHubWebhookService.java:197 | `findByGitHubUsername` finds an installation with the login, or none iff no row has that login. In a table with unique logins, it is the only row with that login |
| WebhookStore.AssigneeFor | src/main/java/com/workflow/workflow/integration/git/github/GitHubWebhookService.java:197-203 | an assignee is found iff an installation has the login and its user is a member of the project. The assignee is that installation's user |
| CommitSync.Directives | src/main/java/com/workflow/workflow/integration/git/github/GitHubWebhookService.java:137-141 | each commit yields exactly one parse, that of its first match, in commit order |
| CommitSync.Processed | src/main/java/com/workflow/workflow/integration/git/github/GitHubWebhookService.java:137-148 | the directives handled before an overflowing number aborts the loop: a prefix without overflow, followed by an overflow or by nothing |
| CommitSync.MoveTask | src/main/java/com/workflow/workflow/integration/git/github/GitHubWebhookService.java:142-146 | a move changes only the lane of the active task with that number in the project; an unknown or soft-deleted task is left alone |
| CommitSync.ApplyDirectives | src/main/java/com/workflow/workflow/integration/git/github/GitHubWebhookService.java:137-148 | the loop fails iff a number overflows. Every active task of the project ends in the lane of the last directive about its number among those handled; all else is unchanged |
| CommitSync.MoveThenRestAt | src/main/java/com/workflow/workflow/integration/git/github/GitHubWebhookService.java:137-148 | for one task, the first directive followed by the rest equals all the directives, because later ones override earlier ones |
| CommitSync.MoveThenRest | src/main/java/com/workflow/workflow/integration/git/github/GitHubWebhookService.java:137-148 | the same as `MoveThenRestAt`, for every task of the store |
| CommitSync.LastMoveOfFirst | src/main/java/com/workflow/workflow/integration/git/github/GitHubWebhookService.java:137-148 | the last directive about a number is the last one after the first directive, or else the first directive itself |
| CommitSync.HandlePush | src/main/java/com/workflow/workflow/integration/git/github/GitHubWebhookService.java:129-151 | without an integration the push is accepted with no change. Otherwise it fails iff some commit's number overflows a `long`. Each active task of the project takes the lane of the last directive about it among the commits before the first overflow. Nothing else changes |
| GitHubWebhook.InstallationRow | src/main/java/com/workflow/workflow/integration/git/github/GitHubWebhookService.java:107 | `findByInstallationId` gives a row with the id, or -1 iff there is none. In a table with unique ids, no other row has the id |
| GitHubWebhook.HandleInstallation | src/main/java/com/workflow/workflow/integration/git/github/GitHubWebhookService.java:105-127 | an unknown id or an unknown action is a no-op. `suspend`/`unsuspend` set only the installation's flag, and `deleted` removes exactly its row. Nothing outside the installation table changes |
| GitHubWebhook.HandleInstallationKeepsUnique | src/main/java/com/workflow/workflow/integration/git/github/GitHubWebhookService.java:105-127 | the handler keeps installation rows unique by id and by login, and after `deleted` no row with the id is left |
| GitHubWebhook.HandleInstallationRepositories | src/main/java/com/workflow/workflow/integration/git/github/GitHubWebhookService.java:215-224 | a `null` list is a no-op. Otherwise exactly the integrations of the listed repositories go: unlisted ones survive with their project, and unmatched names are skipped |
| GitHubWebhook.OpenIssue | src/main/java/com/workflow/workflow/integration/git/github/GitHubWebhookService.java:161-168 | the counter moves on by one. Given statuses, one task under the new number is created in the begin lane with the issue's title and body and created by the system user, and the issue is linked to it. A project without statuses keeps only the counter step |
| GitHubWebhook.HandleIssue | src/main/java/com/workflow/workflow/integration/git/github/GitHubWebhookService.java:153-213 | without an integration, nothing changes. `opened` for an unlinked issue always steps the project's counter. When the project has statuses, it also creates a task under the new number and links it; without statuses nothing else changes. For a linked issue, `deleted` removes the link and the task. Any other action changes at most the linked task: `edited` copies title and body, `closed`/`reopened` set the lane, `assigned` stores the user of the login's installation exactly when that user is a project member, `unassigned` clears the assignee, anything else is a no-op. An unlinked issue under any action but `opened` is a no-op |
| GitHubWebhook.IssueAction | src/main/java/com/workflow/workflow/integration/git/github/GitHubWebhookService.java:176-211 | for a linked issue, `deleted` removes the link and the task. Every other action keeps the links and projects and changes at most the linked task, as the action says |
| GitHubWebhook.IssueFails | src/main/java/com/workflow/workflow/integration/git/github/GitHubWebhookService.java:161-164 | the delivery throws at `getStatuses().get(0)` exactly for an `opened`, unlinked issue of a project without statuses. Such a delivery creates no task and no link |
| GitHubWebhook.AssignTask | src/main/java/com/workflow/workflow/integration/git/github/GitHubWebhookService.java:197-203 | `assigned` changes only the task's assignee. The new assignee is the user of the installation of the assignee's login, and the change happens exactly when that user is a member of the integration's project |
| GitHubWebhook.PullClosedOrReopened | src/main/java/com/workflow/workflow/integration/git/github/GitHubWebhookService.java:242-250 | `merged` becomes the old value or the payload's; the lane is begin iff the state is "open"; nothing else changes |
| GitHubWebhook.HandlePullRequest | src/main/java/com/workflow/workflow/integration/git/github/GitHubWebhookService.java:226-272 | without an integration or a link, nothing changes, and no task or link is ever created. `merged` never goes back to false. `closed`/`reopened` set the lane by `state == "open"`. `edited` changes only the link's title and body, never the task. `assigned` stores the user of the login's installation exactly when that user is a project member, and `unassigned` clears the assignee. Any other action is a no-op |
| GitHubWebhook.HandleWebhook | src/main/java/com/workflow/workflow/integration/git/github/GitHubWebhookService.java:83-103 | routes the five event names to their handlers, and an unknown event changes nothing. Only a push or a throwing issue event replies other than accepted |
| GitHubWebhook.IsAuthorized | src/main/java/com/workflow/workflow/integration/git/github/GitHubWebhookService.java:78-81 | a token is accepted iff it is `"sha256="` followed by exactly the HMAC hex of the body |
| GitHubWebhook.AuthorizedForOneDigest | src/main/java/com/workflow/workflow/integration/git/github/GitHubWebhookService.java:78-81 | a token accepted for two bodies means their HMACs coincide |
| GitHubWebhook.Deliver | src/main/java/com/workflow/workflow/integration/git/github/GitHubWebhookService.java:78-103 | the reply is unauthorized iff the token is not `"sha256="` followed by the HMAC hex of the body, and an unauthorized delivery changes nothing |
| SyncProperties.IssueKeepsValid | src/main/java/com/workflow/workflow/integration/git/github/GitHubWebhookService.java:153-213 | an issue event keeps every task number within its project's counter and every reference pointing at an existing project |
| SyncProperties.HandleWebhookKeepsValid | src/main/java/com/workflow/workflow/integration/git/github/GitHubWebhookService.java:83-103 | every delivery keeps the store invariant: installation rows unique, references to existing projects, task numbers within their counter |
| SyncProperties.OpenedTaskIsFresh | src/main/java/com/workflow/workflow/integration/git/github/GitHubWebhookService.java:161-168 | the task an `opened` issue creates has a number no task of the project had, and it is the only new task |
| SyncProperties.OpenedTwiceIsOpenedOnce | src/main/java/com/workflow/workflow/integration/git/github/GitHubWebhookService.java:161-174 | when the first delivery did not throw, a second delivery of the same `opened` event changes nothing. For a project without statuses the first one throws, and a repeat steps the counter again |
| SyncProperties.OpenEditDeleteRoundTrip | src/main/java/com/workflow/workflow/integration/git/github/GitHubWebhookService.java:153-213 | opened, then edited, then deleted leaves the tasks, the issue links, the integrations and the pull links as they were |
| SyncProperties.PushTwiceIsPushOnce | src/main/java/com/workflow/workflow/integration/git/github/GitHubWebhookService.java:129-151 | handling the same push twice is handling it once |
| SyncProperties.PushOfOneMove | src/main/java/com/workflow/workflow/integration/git/github/GitHubWebhookService.java:137-148 | a one-commit push with a move of `n` is accepted. It sets the lane of active task `n`, and changes nothing when there is no task `n` |
| SyncProperties.BareReferenceClosesTask | src/main/java/com/workflow/workflow/integration/git/github/GitHubWebhookService.java:137-148 | a push whose one commit reads `<text>!<n>`, where `<text>` contains no `!` and does not end in `reopen`, moves active task `n` to the final lane; an unknown `n` changes nothing, and the push is accepted |
| SyncProperties.ReopenReferenceReopensTask | src/main/java/com/workflow/workflow/integration/git/github/GitHubWebhookService.java:137-148 | a push whose one commit reads `<text>reopen!<n>`, where `<text>` contains no `!`, moves active task `n` to the begin lane; an unknown `n` changes nothing, and the push is accepted |
| SyncProperties.SuspendThenUnsuspend | src/main/java/com/workflow/workflow/integration/git/github/GitHubWebhookService.java:112-120 | `suspend` twice equals `suspend` once, and `unsuspend` after `suspend` restores a row that was not suspended |
| SyncProperties.DeletedRemovesOneRow | src/main/java/com/workflow/workflow/integration/git/github/GitHubWebhookService.java:121-123 | `deleted` removes exactly one row with the id. In a table with unique ids, no row with the id is left |
| SyncProperties.RepositoriesRemovedTwice | src/main/java/com/workflow/workflow/integration/git/github/GitHubWebhookService.java:215-224 | removing the same repositories twice equals removing them once |
| Seqs.FilterKeepsExactlySatisfying | src/app/tasks/services/status.service.ts:67 | `Array.prototype.filter` keeps the order, and keeps every element satisfying the predicate as often as it occurs and nothing else |

## Left out

- The HMAC-SHA256 computation and the constant-time comparison of `MessageDigest.isEqual`. The HMAC is a function parameter. UTF-8 byte equality is taken as string equality, which differs only for unpaired surrogates.
- The outbound `patchIssue` notifications after a push (`Flux`/`Mono`). They go to the GitHub client and change no local state.
- JSON deserialisation and its 400 reply. A `null` payload field that makes a handler throw is also not modelled: the payload carries every field the event uses.
- The system user's lookup and creation at start-up. The user is a parameter.
- Transactions and concurrent deliveries. Each save takes effect at once, which is why a failing push keeps its earlier moves and a failing `opened` keeps its counter step.
- `Task.changeStatus` is not part of this model. The begin and final lanes are abstract, and the project's status list is not searched for them.
- Whether deleting a task or an integration cascades in the database. This depends on entity mappings that are not part of this model. The `deleted` issue action removes the task and its issue link and nothing else. Removing an integration leaves its links, and a link whose task is gone edits nothing.
- GitHubWebhook.HandleInstallation, SyncProperties.DeletedRemovesOneRow: the `installation` `deleted` action calls only `delete` on the installation row, but the system most likely also removes that installation's integrations, and with them their issue and pull-request links, through a cascade in the entity mapping. The repository's webhook tests delete an installation that an integration still references, expect success, and then save a new integration for the same repository. The model keeps the integrations and links, because its integrations do not record their installation. Later issue, push and pull-request events on such a repository are therefore applied by the model but ignored by the system.
- The starting value of a new `CounterSequence` is not part of this model. A new project's task counter is taken as 0.
- `CounterSequenceRepository.getIncrementCounter` is not part of this model. It is taken to increment the counter and return the new value, so an `opened` issue's task takes the counter plus one.
- GitHubWebhook.HandleInstallation, GitHubWebhook.InstallationRow, WebhookStore.InstallationOf, SyncProperties.DeletedRemovesOneRow: on a table with two rows of the same id or login, the source's finder throws and the delivery changes nothing. The model instead acts on the first such row. Every store satisfying `WebhookStore.Valid` has no such rows, and every handler keeps it that way.
- WebhookStore.Valid: uniqueness of installation ids and logins is an assumption about the stored rows. `findByInstallationId` and `findByGitHubUsername` return one `Optional`, and would throw on a second matching row, but nothing in the modelled code prevents such rows. A store with duplicates is outside the invariant, and the throw is not modelled.
- WebhookStore.Valid: keying tasks by project and number assumes task numbers are unique within a project. They come from `getIncrementCounter`, which is not part of this model, and no constraint in the modelled code enforces them.
- The `Status` constructor's argument order in the server package is taken as (name, color, ordinal, final, begin).
- LegacyProject.CompareTo, LegacyProject.CompareToIsTotalOrder: require both names to be present, because `compareTo` throws on a `null` name.
- LegacyProject.StringHash, LegacyProject.StringCompare: a Dafny `char` is a Unicode scalar value, while Java's `String` works in UTF-16 code units. Hash and order differ from Java's for characters outside the Basic Multilingual Plane.
- CommitDirective: string indices are code points rather than UTF-16 units. The pattern is ASCII, so matches and numbers are the same.
- The HTTP and `combineLatest` plumbing of `StatusService`. Only the grouping callbacks are modelled, and the crash of `board` is modelled as `None`.

=== FILE: board.dfy ===
/** The grouping callbacks of the client's status service: `listWithTasks`
    puts every task under the status it names, and `board` builds one row per
    task with subtasks plus a final OTHER row holding the tasks without
    subtasks. Task and status lists arrive as plain sequences; the HTTP calls
    that fetch them are not modelled. */
module StatusBoard {
  import opened Optional
  import opened Seqs

  datatype Status = Status(id: int, name: string)

  /** A task as the client receives it; `statusId` may be absent and an
      absent `subTasks` is the empty sequence. */
  datatype Task = Task(id: int, statusId: Option<int>, subTasks: seq<Task>)

  /** A status together with the tasks shown under it. */
  datatype Column = Column(status: Status, tasks: seq<Task>)

  /** A board row is labelled by its parent task or by the string "OTHER". */
  datatype Label = ParentTask(task: Task) | OtherLabel

  datatype Row = Row(heading: Label, columns: seq<Column>)

  /** `task.statusId === status.id`: an absent status id matches nothing. */
  predicate InStatus(t: Task, s: Status)
  {
    t.statusId == Some(s.id)
  }

  function InStatusOf(s: Status): Task -> bool
  {
    (t: Task) => InStatus(t, s)
  }

  /** `task.subTasks?.length` is falsy. */
  predicate IsLeaf(t: Task)
  {
    |t.subTasks| == 0
  }

  /** The column a task without subtasks lands in: the first status whose id
      it names, or -1 when there is none (where `find` yields `undefined`). */
  function ColumnOf(statuses: seq<Status>, t: Task): (r: int)
    ensures -1 <= r < |statuses|
    ensures r == -1 <==> forall j :: 0 <= j < |statuses| ==> !InStatus(t, statuses[j])
    ensures 0 <= r ==> InStatus(t, statuses[r]) && forall j :: 0 <= j < r ==> !InStatus(t, statuses[j])
  {
    FirstIndex(statuses, (s: Status) => InStatus(t, s))
  }

  /** The callback of `listWithTasks` (and of the subtask columns of `board`):
      one column per status, holding the tasks that name it. */
  function ListWithTasks(statuses: seq<Status>, tasks: seq<Task>): (r: seq<Column>)
    ensures |r| == |statuses|
    ensures forall j :: 0 <= j < |r| ==> r[j].status == statuses[j]
  {
    seq(|statuses|, j requires 0 <= j < |statuses| => Column(statuses[j], Filter(tasks, InStatusOf(statuses[j]))))
  }

  /** `listWithTasks` keeps the status order, and each column holds exactly
      the tasks that name its status, in their original order and with their
      multiplicity. */
  lemma ListWithTasksGroupsByStatus(statuses: seq<Status>, tasks: seq<Task>)
    ensures var r := ListWithTasks(statuses, tasks);
            forall j :: 0 <= j < |r| ==> r[j].status == statuses[j] && SubsequenceOf(r[j].tasks, tasks)
    ensures var r := ListWithTasks(statuses, tasks);
            forall j, t :: 0 <= j < |r| ==>
              multiset(r[j].tasks)[t] == if InStatus(t, statuses[j]) then multiset(tasks)[t] else 0
  {
    forall j | 0 <= j < |statuses| {
      FilterKeepsExactlySatisfying(tasks, InStatusOf(statuses[j]));
    }
  }

  /** Whether a task without subtasks belongs in column `j` of the OTHER row. */
  function InOtherColumn(statuses: seq<Status>, j: int): Task -> bool
  {
    (t: Task) => IsLeaf(t) && ColumnOf(statuses, t) == j
  }

  function HasSubtasks(t: Task): bool
  {
    !IsLeaf(t)
  }

  /** The board crashes when a task without subtasks names no status: the
      non-null assertion on `find` lets `undefined` through and reading its
      `tasks` throws. */
  predicate Crashes(statuses: seq<Status>, tasks: seq<Task>)
  {
    exists i :: 0 <= i < |tasks| && IsLeaf(tasks[i]) && ColumnOf(statuses, tasks[i]) == -1
  }

  /** The rows for tasks with subtasks, in task order: each headed by its
      task and holding that task's subtasks grouped by status. */
  function ParentRows(statuses: seq<Status>, tasks: seq<Task>): (r: seq<Row>)
    ensures forall i :: 0 <= i < |r| ==> r[i].heading.ParentTask? && HasSubtasks(r[i].heading.task)
    ensures forall i :: 0 <= i < |r| ==> r[i].columns == ListWithTasks(statuses, r[i].heading.task.subTasks)
    decreases |tasks|
  {
    if |tasks| == 0 then []
    else
      var last := tasks[|tasks| - 1];
      ParentRows(statuses, tasks[..|tasks| - 1]) + (if IsLeaf(last) then [] else [Row(ParentTask(last), ListWithTasks(statuses, last.subTasks))])
  }

  /** There is one parent row per task with subtasks, headed by those tasks
      in their order. */
  lemma {:induction false} ParentRowsAreTasksWithSubtasks(statuses: seq<Status>, tasks: seq<Task>)
    ensures |ParentRows(statuses, tasks)| == |Filter(tasks, HasSubtasks)|
    ensures forall i :: 0 <= i < |ParentRows(statuses, tasks)| ==>
              ParentRows(statuses, tasks)[i].heading == ParentTask(Filter(tasks, HasSubtasks)[i])
    decreases |tasks|
  {
    if |tasks| > 0 {
      var front, last := tasks[..|tasks| - 1], tasks[|tasks| - 1];
      assert tasks == front + [last];
      FilterSnoc(front, last, HasSubtasks);
      ParentRowsAreTasksWithSubtasks(statuses, front);
    }
  }

  /** The columns of the OTHER row: one per status, each holding the tasks
      without subtasks that land in it. */
  function OtherColumns(statuses: seq<Status>, tasks: seq<Task>): (r: seq<Column>)
    ensures |r| == |statuses|
  {
    seq(|statuses|, j requires 0 <= j < |statuses| => Column(statuses[j], Filter(tasks, InOtherColumn(statuses, j))))
  }

  /** The OTHER row keeps the status order, and a task without subtasks sits,
      in task order and with its multiplicity, in the column of the first
      status it names and in no other; tasks with subtasks appear nowhere. */
  lemma OtherColumnsPlaceEachTaskOnce(statuses: seq<Status>, tasks: seq<Task>)
    ensures var r := OtherColumns(statuses, tasks);
            forall j :: 0 <= j < |r| ==> r[j].status == statuses[j] && SubsequenceOf(r[j].tasks, tasks)
    ensures var r := OtherColumns(statuses, tasks);
            forall j, t :: 0 <= j < |r| ==>
              multiset(r[j].tasks)[t] == if IsLeaf(t) && ColumnOf(statuses, t) == j then multiset(tasks)[t] else 0
  {
    forall j | 0 <= j < |statuses| {
      FilterKeepsExactlySatisfying(tasks, InOtherColumn(statuses, j));
    }
  }

  /** One more task extends the OTHER row only in the column the task lands in. */
  lemma OtherColumnsSnoc(statuses: seq<Status>, tasks: seq<Task>, t: Task)
    ensures var before, after := OtherColumns(statuses, tasks), OtherColumns(statuses, tasks + [t]);
            var j := ColumnOf(statuses, t);
            if IsLeaf(t) && j != -1 then after == before[j := Column(statuses[j], before[j].tasks + [t])]
            else after == before
  {
    var before, after := OtherColumns(statuses, tasks), OtherColumns(statuses, tasks + [t]);
    var j := ColumnOf(statuses, t);
    forall k | 0 <= k < |statuses|
      ensures after[k] == if IsLeaf(t) && j == k then Column(statuses[k], before[k].tasks + [t]) else before[k]
    {
      FilterSnoc(tasks, t, InOtherColumn(statuses, k));
    }
  }

  /** The callback of `board`: `None` exactly when it throws, otherwise the
      rows of the tasks with subtasks followed by the OTHER row. */
  method Board(statuses: seq<Status>, tasks: seq<Task>) returns (r: Option<seq<Row>>)
    ensures r.None? <==> Crashes(statuses, tasks)
    ensures r.Some? ==> r.value == ParentRows(statuses, tasks) + [Row(OtherLabel, OtherColumns(statuses, tasks))]
    ensures r.Some? ==> |r.value| == |Filter(tasks, HasSubtasks)| + 1
  {
    var board: seq<Row> := [];
    var other: seq<Column> := seq(|statuses|, j requires 0 <= j < |statuses| => Column(statuses[j], []));
    assert other == OtherColumns(statuses, []);
    for n := 0 to |tasks|
      invariant board == ParentRows(statuses, tasks[..n])
      invariant other == OtherColumns(statuses, tasks[..n])
      invariant !Crashes(statuses, tasks[..n])
    {
      var t := tasks[n];
      var j := ColumnOf(statuses, t);
      if IsLeaf(t) && j == -1 {
        assert tasks[n] == t;
        return None;
      }
      board, other := BoardStep(statuses, tasks[..n], t, board, other);
      assert tasks[..n + 1] == tasks[..n] + [t];
    }
    assert tasks[..|tasks|] == tasks;
    ParentRowsAreTasksWithSubtasks(statuses, tasks);
    board := board + [Row(OtherLabel, other)];
    return Some(board);
  }

  /** One iteration of the loop of `board` for a task that does not crash it:
      a task with subtasks adds its row, any other task joins its column of
      the OTHER row. */
  method BoardStep(statuses: seq<Status>, done: seq<Task>, t: Task, board: seq<Row>, other: seq<Column>)
    returns (board': seq<Row>, other': seq<Column>)
    requires !(IsLeaf(t) && ColumnOf(statuses, t) == -1)
    requires board == ParentRows(statuses, done) && other == OtherColumns(statuses, done)
    ensures board' == ParentRows(statuses, done + [t]) && other' == OtherColumns(statuses, done + [t])
  {
    assert (done + [t])[..|done|] == done;
    OtherColumnsSnoc(statuses, done, t);
    if |t.subTasks| > 0 {
      board', other' := board + [Row(ParentTask(t), ListWithTasks(statuses, t.subTasks))], other;
    } else {
      var j := ColumnOf(statuses, t);
      board', other' := board, other[j := Column(other[j].status, other[j].tasks + [t])];
    }
  }
}

=== FILE: directive.dfy ===
/** The commit-message matcher of the push handler: the leftmost match of the
    regular expression `(reopen|close)?!(\d+)` as `Matcher.find()` reports it,
    where `\d` is the ASCII range `[0-9]`, followed by `Long.parseLong` of the
    digit group. */
module CommitDirective {
  import opened Optional
  import opened JavaNumbers

  predicate IsDigit(c: char) { '0' <= c <= '9' }

  /** The optional keyword group of the pattern. */
  datatype Keyword = Reopen | Close | NoKeyword

  /** One match of the pattern: the keyword group and the digit group. */
  datatype Match = Match(keyword: Keyword, digits: string)

  /** What one commit message asks of the push handler. */
  datatype Command =
    | NoCommand                        // the pattern does not occur
    | Move(open: bool, number: nat)    // `reopen!n` (open) or `close!n` / `!n` (not open)
    | Overflow                         // the digit group does not fit in a `long`

  /** `w` occurs in `s` starting at index `i`. */
  predicate HasAt(s: string, i: nat, w: string)
  {
    i + |w| <= |s| && s[i..i + |w|] == w
  }

  predicate AllDigits(s: string)
  {
    forall k :: 0 <= k < |s| ==> IsDigit(s[k])
  }

  predicate DigitAt(s: string, i: nat)
  {
    i < |s| && IsDigit(s[i])
  }

  /** A `!` at index `p` immediately followed by a digit. */
  predicate BangDigitAt(s: string, p: nat)
  {
    p < |s| && s[p] == '!' && DigitAt(s, p + 1)
  }

  /** The greedy `\d+`: the longest run of digits starting at `i`. */
  function DigitRun(s: string, i: nat): (r: string)
    requires i <= |s|
    ensures i + |r| <= |s| && r == s[i..i + |r|]
    ensures AllDigits(r)
    ensures i + |r| == |s| || !IsDigit(s[i + |r|])
    decreases |s| - i
  {
    if i < |s| && IsDigit(s[i]) then [s[i]] + DigitRun(s, i + 1) else []
  }

  /** The match the regex engine reports when it tries start index `i`: the
      alternatives of the optional group are tried in order `reopen`, `close`,
      then the empty group, and the first that lets `!\d+` follow wins. */
  function MatchAt(s: string, i: nat): (r: Option<Match>)
    ensures r.Some? ==> |r.value.digits| > 0 && AllDigits(r.value.digits)
  {
    if HasAt(s, i, "reopen!") && DigitAt(s, i + 7) then Some(Match(Reopen, DigitRun(s, i + 7)))
    else if HasAt(s, i, "close!") && DigitAt(s, i + 6) then Some(Match(Close, DigitRun(s, i + 6)))
    else if HasAt(s, i, "!") && DigitAt(s, i + 1) then Some(Match(NoKeyword, DigitRun(s, i + 1)))
    else None
  }

  /** `find()` from index `i`: the first start index at which a match exists. */
  function FindFrom(s: string, i: nat): (r: Option<Match>)
    requires i <= |s|
    ensures r.Some? ==> |r.value.digits| > 0 && AllDigits(r.value.digits)
    decreases |s| - i
  {
    if i == |s| then None
    else if MatchAt(s, i).Some? then MatchAt(s, i)
    else FindFrom(s, i + 1)
  }

  /** The leftmost match in the whole message. */
  function Find(s: string): (r: Option<Match>)
    ensures r.Some? ==> |r.value.digits| > 0 && AllDigits(r.value.digits)
  {
    FindFrom(s, 0)
  }

  /** The keyword the six (or five) characters in front of index `p` spell. */
  function KeywordBefore(s: string, p: nat): Keyword
    requires p <= |s|
  {
    if p >= 6 && s[p - 6..p] == "reopen" then Reopen
    else if p >= 5 && s[p - 5..p] == "close" then Close
    else NoKeyword
  }

  /** Where a match whose `!` is at index `p` starts. */
  function StartOf(s: string, p: nat): nat
    requires p <= |s|
  {
    match KeywordBefore(s, p)
    case Reopen => p - 6
    case Close => p - 5
    case NoKeyword => p
  }

  /** No `!`-digit pair occurs before index `p`. */
  predicate NoBangDigitBefore(s: string, p: nat)
  {
    forall q :: 0 <= q < p ==> !BangDigitAt(s, q)
  }

  /** A match starting at `i` needs a `!`-digit pair at `i`, `i + 5` or `i + 6`. */
  lemma MatchNeedsBangDigit(s: string, i: nat)
    requires MatchAt(s, i).Some?
    ensures BangDigitAt(s, i) || BangDigitAt(s, i + 5) || BangDigitAt(s, i + 6)
  {
    if HasAt(s, i, "reopen!") && DigitAt(s, i + 7) {
      assert s[i + 6] == "reopen!"[6];
    } else if HasAt(s, i, "close!") && DigitAt(s, i + 6) {
      assert s[i + 5] == "close!"[5];
    } else {
      assert s[i] == "!"[0];
    }
  }

  /** Without any `!`-digit pair from index `i` on, `find()` from `i` fails. */
  lemma {:induction false} FindFromNone(s: string, i: nat)
    requires i <= |s|
    requires forall q :: i <= q < |s| ==> !BangDigitAt(s, q)
    ensures FindFrom(s, i) == None
    decreases |s| - i
  {
    if i < |s| {
      if MatchAt(s, i).Some? {
        MatchNeedsBangDigit(s, i);
        assert false;
      }
      FindFromNone(s, i + 1);
    }
  }

  lemma HasAtChar(s: string, i: nat, w: string, k: nat)
    requires k < |w|
    ensures HasAt(s, i, w) ==> s[i + k] == w[k]
  {
    if HasAt(s, i, w) {
      assert s[i + k] == s[i..i + |w|][k];
    }
  }

  lemma HasAtPrefix(s: string, i: nat, w: string, k: nat)
    requires k <= |w|
    ensures HasAt(s, i, w) ==> s[i..i + k] == w[..k]
  {
    if HasAt(s, i, w) {
      assert s[i..i + k] == s[i..i + |w|][..k];
    }
  }

  /** A `reopen` match starting before the start belonging to the first
      `!`-digit pair is impossible. */
  lemma NoReopenBeforeStart(s: string, p: nat, i: nat)
    requires BangDigitAt(s, p) && NoBangDigitBefore(s, p)
    requires i < StartOf(s, p)
    ensures !(HasAt(s, i, "reopen!") && DigitAt(s, i + 7))
  {
    if i + 6 < p {
      assert !BangDigitAt(s, i + 6);
      HasAtChar(s, i, "reopen!", 6);
    } else if i + 6 == p {
      assert KeywordBefore(s, p) != Reopen;
      HasAtPrefix(s, i, "reopen!", 6);
      assert "reopen!"[..6] == "reopen";
    } else {
      HasAtChar(s, i, "reopen!", p - i);
    }
  }

  /** Likewise for a `close` match. */
  lemma NoCloseBeforeStart(s: string, p: nat, i: nat)
    requires BangDigitAt(s, p) && NoBangDigitBefore(s, p)
    requires i < StartOf(s, p)
    ensures !(HasAt(s, i, "close!") && DigitAt(s, i + 6))
  {
    if i + 5 < p {
      assert !BangDigitAt(s, i + 5);
      HasAtChar(s, i, "close!", 5);
    } else if i + 5 == p {
      assert KeywordBefore(s, p) == NoKeyword;
      HasAtPrefix(s, i, "close!", 5);
      assert "close!"[..5] == "close";
    } else {
      HasAtChar(s, i, "close!", p - i);
    }
  }

  /** Before the start of the match belonging to the first `!`-digit pair no
      match can start: the keyword letters contain no `!`. */
  lemma NoMatchBeforeStart(s: string, p: nat, i: nat)
    requires BangDigitAt(s, p) && NoBangDigitBefore(s, p)
    requires i < StartOf(s, p)
    ensures MatchAt(s, i) == None
  {
    NoReopenBeforeStart(s, p, i);
    NoCloseBeforeStart(s, p, i);
    assert !BangDigitAt(s, i);
    HasAtChar(s, i, "!", 0);
  }

  /** The match starting six characters before a `!`-digit pair preceded by `reopen`. */
  lemma MatchAtReopen(s: string, p: nat)
    requires BangDigitAt(s, p) && KeywordBefore(s, p) == Reopen
    ensures MatchAt(s, p - 6) == Some(Match(Reopen, DigitRun(s, p + 1)))
  {
    assert s[p - 6..p + 1] == s[p - 6..p] + [s[p]];
  }

  /** The match starting five characters before a `!`-digit pair preceded by `close`. */
  lemma MatchAtClose(s: string, p: nat)
    requires BangDigitAt(s, p) && KeywordBefore(s, p) == Close
    ensures MatchAt(s, p - 5) == Some(Match(Close, DigitRun(s, p + 1)))
  {
    assert s[p - 5..p + 1] == s[p - 5..p] + [s[p]];
    HasAtChar(s, p - 5, "reopen!", 6);
  }

  /** The match starting at a `!`-digit pair preceded by neither keyword. */
  lemma MatchAtBare(s: string, p: nat)
    requires BangDigitAt(s, p) && KeywordBefore(s, p) == NoKeyword
    ensures MatchAt(s, p) == Some(Match(NoKeyword, DigitRun(s, p + 1)))
  {
    assert s[p..p + 1] == [s[p]];
    HasAtChar(s, p, "reopen!", 0);
    HasAtChar(s, p, "close!", 0);
  }

  /** The match at the start belonging to a `!`-digit pair. */
  lemma MatchAtStart(s: string, p: nat)
    requires BangDigitAt(s, p)
    ensures MatchAt(s, StartOf(s, p)) == Some(Match(KeywordBefore(s, p), DigitRun(s, p + 1)))
  {
    match KeywordBefore(s, p)
    case Reopen => MatchAtReopen(s, p);
    case Close => MatchAtClose(s, p);
    case NoKeyword => MatchAtBare(s, p);
  }

  lemma {:induction false} FindFromFirst(s: string, p: nat, i: nat)
    requires BangDigitAt(s, p) && NoBangDigitBefore(s, p)
    requires i <= StartOf(s, p)
    ensures FindFrom(s, i) == Some(Match(KeywordBefore(s, p), DigitRun(s, p + 1)))
    decreases StartOf(s, p) - i
  {
    if i == StartOf(s, p) {
      MatchAtStart(s, p);
    } else {
      NoMatchBeforeStart(s, p, i);
      FindFromFirst(s, p, i + 1);
    }
  }

  /** The leftmost match is fixed by the first `!` that is immediately
      followed by a digit: its keyword is `reopen` exactly when the six
      characters in front of that `!` spell `reopen` (`close` likewise with
      five), and its number is the whole digit run after the `!`. When no
      `!` is followed by a digit there is no match at all. */
  lemma FindIsFirstBangDigit(s: string)
    ensures Find(s).None? <==> forall q :: 0 <= q < |s| ==> !BangDigitAt(s, q)
    ensures forall p: nat :: BangDigitAt(s, p) && NoBangDigitBefore(s, p) ==>
              Find(s) == Some(Match(KeywordBefore(s, p), DigitRun(s, p + 1)))
  {
    forall p: nat | BangDigitAt(s, p) && NoBangDigitBefore(s, p)
      ensures Find(s) == Some(Match(KeywordBefore(s, p), DigitRun(s, p + 1)))
    {
      FindFromFirst(s, p, 0);
    }
    if forall q :: 0 <= q < |s| ==> !BangDigitAt(s, q) {
      FindFromNone(s, 0);
    } else {
      var q :| 0 <= q < |s| && BangDigitAt(s, q);
      var p := FirstBangDigit(s, q);
      FindFromFirst(s, p, 0);
    }
  }

  /** Some `!`-digit pair at or before `q` has none before it. */
  function FirstBangDigit(s: string, q: nat): (p: nat)
    requires BangDigitAt(s, q)
    ensures p <= q && BangDigitAt(s, p) && NoBangDigitBefore(s, p)
    decreases q
  {
    if NoBangDigitBefore(s, q) then q
    else
      var q' :| 0 <= q' < q && BangDigitAt(s, q');
      FirstBangDigit(s, q')
  }

  /** `Long.parseLong` of a run of ASCII digits: its decimal value. */
  function DecimalValue(digits: string): (r: nat)
    requires AllDigits(digits)
    ensures r == 0 <==> forall i :: 0 <= i < |digits| ==> digits[i] == '0'
  {
    if |digits| == 0 then 0
    else DecimalValue(digits[..|digits| - 1]) * 10 + (digits[|digits| - 1] as int - '0' as int)
  }

  /** Leading zeros do not change the value: `Long.parseLong("007")` is 7. */
  lemma {:induction false} LeadingZeroIgnored(digits: string)
    requires AllDigits(digits)
    ensures DecimalValue("0" + digits) == DecimalValue(digits)
    decreases |digits|
  {
    if |digits| > 0 {
      var front := digits[..|digits| - 1];
      assert ("0" + digits)[..|digits|] == "0" + front;
      LeadingZeroIgnored(front);
    }
  }

  /** The decimal spelling of `n`, without leading zeros. */
  function ToDecimal(n: nat): (r: string)
    ensures |r| > 0 && AllDigits(r)
  {
    var d := ['0' + (n % 10) as char];
    if n < 10 then d else ToDecimal(n / 10) + d
  }

  /** Reading back the decimal spelling of a number gives the number. */
  lemma {:induction false} DecimalRoundTrip(n: nat)
    ensures DecimalValue(ToDecimal(n)) == n
  {
    var r := ToDecimal(n);
    if n >= 10 {
      assert r[..|r| - 1] == ToDecimal(n / 10);
      DecimalRoundTrip(n / 10);
    }
  }

  /** What the push handler does with one commit message: nothing without a
      match; a number too large for a `long` makes `Long.parseLong` throw;
      otherwise the task number and whether the keyword was `reopen`. */
  function ParseCommit(msg: string): (c: Command)
    ensures c.NoCommand? <==> Find(msg).None?
    ensures c.Move? ==> c.number <= LongMax && (c.open <==> Find(msg).value.keyword == Reopen)
    ensures c.Move? ==> c.number == DecimalValue(Find(msg).value.digits)
    ensures c.Overflow? <==> Find(msg).Some? && DecimalValue(Find(msg).value.digits) > LongMax
  {
    match Find(msg)
    case None => NoCommand
    case Some(m) =>
      var n := DecimalValue(m.digits);
      if n > LongMax then Overflow else Move(m.keyword == Reopen, n)
  }

  /** A message without any `!` carries no directive. */
  lemma NoBangNoCommand(msg: string)
    requires forall k :: 0 <= k < |msg| ==> msg[k] != '!'
    ensures ParseCommit(msg) == NoCommand
  {
    FindIsFirstBangDigit(msg);
  }

  /** A digit run reaching the end of the message is the whole rest of it. */
  lemma {:induction false} DigitRunToEnd(s: string, i: nat)
    requires i <= |s| && AllDigits(s[i..])
    ensures DigitRun(s, i) == s[i..]
    decreases |s| - i
  {
    if i < |s| {
      assert s[i] == s[i..][0];
      assert s[i + 1..] == s[i..][1..];
      DigitRunToEnd(s, i + 1);
    }
  }

  /** Text without `!` followed by `!<n>` parses to a move of task `n`,
      reopening it exactly when the text ends in `reopen`. */
  lemma ReferenceAfter(head: string, n: nat)
    requires n <= LongMax
    requires forall k :: 0 <= k < |head| ==> head[k] != '!'
    ensures ParseCommit(head + "!" + ToDecimal(n)) == Move(KeywordBefore(head, |head|) == Reopen, n)
  {
    var digits := ToDecimal(n);
    var msg := head + "!" + digits;
    var p := |head|;
    assert msg[p] == '!';
    assert msg[p + 1..] == digits;
    assert msg[p + 1] == digits[0];
    assert BangDigitAt(msg, p);
    assert NoBangDigitBefore(msg, p) by {
      forall q | 0 <= q < p
        ensures !BangDigitAt(msg, q)
      {
        assert msg[q] == head[q];
      }
    }
    FindIsFirstBangDigit(msg);
    assert msg[..p] == head;
    if p >= 6 {
      assert msg[p - 6..p] == head[p - 6..p];
    }
    if p >= 5 {
      assert msg[p - 5..p] == head[p - 5..p];
    }
    assert KeywordBefore(msg, p) == KeywordBefore(head, p);
    DigitRunToEnd(msg, p + 1);
    DecimalRoundTrip(n);
  }

  /** `reopen!<n>` after text without `!` moves task `n` to the begin lane. */
  lemma ReopenReferenceParses(prefix: string, n: nat)
    requires n <= LongMax
    requires forall k :: 0 <= k < |prefix| ==> prefix[k] != '!'
    ensures ParseCommit(prefix + "reopen!" + ToDecimal(n)) == Move(true, n)
  {
    var head := prefix + "reopen";
    assert forall k :: 0 <= k < |head| ==> head[k] != '!' by {
      forall k | 0 <= k < |head|
        ensures head[k] != '!'
      {
        if k >= |prefix| {
          assert head[k] == "reopen"[k - |prefix|];
        }
      }
    }
    ReferenceAfter(head, n);
    assert head[|head| - 6..|head|] == "reopen";
    assert head + "!" == prefix + "reopen!";
  }

  /** `close!<n>` after text without `!` moves task `n` to the final lane. */
  lemma CloseReferenceParses(prefix: string, n: nat)
    requires n <= LongMax
    requires forall k :: 0 <= k < |prefix| ==> prefix[k] != '!'
    ensures ParseCommit(prefix + "close!" + ToDecimal(n)) == Move(false, n)
  {
    var head := prefix + "close";
    assert forall k :: 0 <= k < |head| ==> head[k] != '!' by {
      forall k | 0 <= k < |head|
        ensures head[k] != '!'
      {
        if k >= |prefix| {
          assert head[k] == "close"[k - |prefix|];
        }
      }
    }
    ReferenceAfter(head, n);
    var m := |head|;
    assert head[m - 5..m] == "close";
    if m >= 6 {
      assert head[m - 6..m][5] == head[m - 1] == 'e';
    }
    assert KeywordBefore(head, m) == Close;
    assert head + "!" == prefix + "close!";
  }

  /** `!<n>` after text without `!` that does not end in `reopen` moves task
      `n` to the final lane. */
  lemma BareReferenceParses(prefix: string, n: nat)
    requires n <= LongMax
    requires forall k :: 0 <= k < |prefix| ==> prefix[k] != '!'
    requires KeywordBefore(prefix, |prefix|) != Reopen
    ensures ParseCommit(prefix + "!" + ToDecimal(n)) == Move(false, n)
  {
    ReferenceAfter(prefix, n);
  }
}

=== FILE: legacy_project.dfy ===
/** The project entity of the older `com.workflow` package: the four-argument
    constructor, `apply`, `equals`, `hashCode`, `compareTo` and the repository
    name of an active integration. Java `long` ids are integers in the `long`
    range; `int` arithmetic in `hashCode` wraps explicitly. */
module LegacyProject {
  import opened Optional
  import opened JavaNumbers

  /** A counter entity, known by its id. */
  type CounterRef = int

  /** The repository binding; `active` is the soft-delete timestamp, `None`
      while the binding is live. */
  datatype GitHubIntegration = GitHubIntegration(repositoryFullName: string, active: Option<int>)

  datatype Project = Project(
    id: int,
    name: Option<string>,
    statusCounter: CounterRef,
    taskCounter: CounterRef,
    sprintCounter: CounterRef,
    gitHubIntegration: Option<GitHubIntegration>)

  /** The body of a create or update request; `None` is a `null` name. */
  datatype ProjectRequest = ProjectRequest(name: Option<string>)

  /** The four-argument constructor: name and the three counters exactly as
      given, the default id 0 and no integration. */
  function NewProject(name: Option<string>, statusCounter: CounterRef, taskCounter: CounterRef,
                      sprintCounter: CounterRef): (p: Project)
    ensures p.name == name && p.id == 0
    ensures p.statusCounter == statusCounter && p.taskCounter == taskCounter && p.sprintCounter == sprintCounter
    ensures RepositoryName(p) == None
  {
    Project(0, name, statusCounter, taskCounter, sprintCounter, None)
  }

  /** `apply`: a `null` name leaves the project alone, a present name
      replaces the old one; nothing else changes. */
  function Apply(p: Project, request: ProjectRequest): (r: Project)
    ensures request.name.None? ==> r == p
    ensures request.name.Some? ==> r.name == request.name
    ensures r.(name := p.name) == p
  {
    if request.name != None then p.(name := request.name) else p
  }

  /** `equals`, following its branches: ids first, then a `null` name equals
      only a `null` name, else `String.equals`. */
  function Equals(a: Project, b: Project): (r: bool)
    ensures r <==> a.id == b.id && a.name == b.name
  {
    if a.id != b.id then false
    else if a.name.None? then b.name.None?
    else b.name.Some? && a.name.value == b.name.value
  }

  /** `equals` is an equivalence relation. */
  lemma EqualsIsEquivalence(a: Project, b: Project, c: Project)
    ensures Equals(a, a)
    ensures Equals(a, b) ==> Equals(b, a)
    ensures Equals(a, b) && Equals(b, c) ==> Equals(a, c)
  {
  }

  /** Applying a request with a `null` name gives an equal project. */
  lemma ApplyNullIsEqual(p: Project)
    ensures Equals(Apply(p, ProjectRequest(None)), p)
  {
  }

  /** Java's `(int)` narrowing of a value: the low 32 bits, read signed. */
  function ToInt(x: int): (r: int)
    ensures IsInt(r) && (r - x) % TwoTo32 == 0
  {
    var low := x % TwoTo32;
    if low >= 0x8000_0000 then low - TwoTo32 else low
  }

  /** Bitwise exclusive or of two naturals, one binary digit at a time. */
  function Xor(a: nat, b: nat): nat
    decreases a + b
  {
    if a == 0 && b == 0 then 0 else 2 * Xor(a / 2, b / 2) + (a + b) % 2
  }

  /** Exclusive or with zero changes nothing. */
  lemma {:induction false} XorZero(a: nat)
    ensures Xor(a, 0) == a
    decreases a
  {
    if a > 0 {
      XorZero(a / 2);
    }
  }

  /** A `long` in [0, 2^31) is its own low word and has a zero high word. */
  lemma SmallLongWords(v: int)
    requires 0 <= v < 0x8000_0000
    ensures v % TwoTo64 == v && v % TwoTo32 == v && v / TwoTo32 == 0
  {
  }

  /** `Long.hashCode(v)`: `(int)(v ^ (v >>> 32))`. The narrowing keeps the
      low word of the exclusive or, which is the low word of `v` combined
      with its high word. */
  function LongHash(v: int): (r: int)
    requires IsLong(v)
    ensures IsInt(r)
    ensures 0 <= v < 0x8000_0000 ==> r == v
  {
    var bits := v % TwoTo64;
    var low, high := bits % TwoTo32, bits / TwoTo32;
    assert 0 <= v < 0x8000_0000 ==> Xor(low, high) == v by {
      if 0 <= v < 0x8000_0000 {
        SmallLongWords(v);
        XorZero(v);
      }
    }
    ToInt(Xor(low, high))
  }

  /** `String.hashCode`: `s[0]*31^(n-1) + ... + s[n-1]` in wrapping `int`
      arithmetic. */
  function StringHash(s: string): (r: int)
    ensures IsInt(r)
    ensures |s| == 1 ==> r == s[0] as int
  {
    if |s| == 0 then 0
    else ToInt(31 * StringHash(s[..|s| - 1]) + s[|s| - 1] as int)
  }

  /** `hashCode`: `31 * (31 + Long.hashCode(id)) + (name == null ? 0 :
      name.hashCode())`, wrapping at each step. */
  function HashCode(p: Project): (r: int)
    requires IsLong(p.id)
    ensures IsInt(r)
  {
    var hash := ToInt(31 + LongHash(p.id));
    ToInt(31 * hash + (if p.name.None? then 0 else StringHash(p.name.value)))
  }

  /** A worked value: id 7 and name "x" hash to `31 * (31 + 7) + 'x'`, which
      is 1298. */
  lemma HashCodeOfSmallProject(counters: CounterRef)
    ensures HashCode(Project(7, Some("x"), counters, counters, counters, None)) == 1298
  {
    assert LongHash(7) == 7;
    assert StringHash("x") == 120;
  }

  /** Equal projects have equal hash codes. */
  lemma EqualsImpliesSameHash(a: Project, b: Project)
    requires IsLong(a.id) && IsLong(b.id)
    requires Equals(a, b)
    ensures HashCode(a) == HashCode(b)
  {
  }

  /** `Long.compare`. */
  function LongCompare(x: int, y: int): int
  {
    if x < y then -1 else if x == y then 0 else 1
  }

  /** `String.compareTo`: the difference of the first differing characters,
      or else the difference of the lengths. */
  function StringCompare(x: string, y: string): (r: int)
    ensures x <= y || y <= x ==> r == |x| - |y|
    decreases |x|
  {
    if |x| == 0 || |y| == 0 then |x| - |y|
    else if x[0] != y[0] then x[0] as int - y[0] as int
    else StringCompare(x[1..], y[1..])
  }

  /** Away from the prefix case, `String.compareTo` is the difference of the
      characters at the first index where the strings differ. */
  lemma {:induction false} StringCompareAtFirstDifference(x: string, y: string, k: nat)
    requires k < |x| && k < |y| && x[..k] == y[..k] && x[k] != y[k]
    ensures StringCompare(x, y) == x[k] as int - y[k] as int
    decreases k
  {
    if k > 0 {
      assert x[0] == x[..k][0] == y[..k][0] == y[0];
      assert x[1..][..k - 1] == x[..k][1..] == y[..k][1..] == y[1..][..k - 1];
      StringCompareAtFirstDifference(x[1..], y[1..], k - 1);
    }
  }

  lemma {:induction false} StringCompareZero(x: string, y: string)
    ensures StringCompare(x, y) == 0 <==> x == y
    decreases |x|
  {
    if |x| > 0 && |y| > 0 && x[0] == y[0] {
      StringCompareZero(x[1..], y[1..]);
      assert x == [x[0]] + x[1..] && y == [y[0]] + y[1..];
    }
  }

  lemma {:induction false} StringCompareAntisymmetric(x: string, y: string)
    ensures StringCompare(x, y) == -StringCompare(y, x)
    decreases |x|
  {
    if |x| > 0 && |y| > 0 && x[0] == y[0] {
      StringCompareAntisymmetric(x[1..], y[1..]);
    }
  }

  lemma {:induction false} StringCompareTransitive(x: string, y: string, z: string)
    requires StringCompare(x, y) < 0 && StringCompare(y, z) < 0
    ensures StringCompare(x, z) < 0
    decreases |x|
  {
    if |x| > 0 && |y| > 0 && |z| > 0 && x[0] == y[0] && y[0] == z[0] {
      StringCompareTransitive(x[1..], y[1..], z[1..]);
    }
  }

  /** `compareTo`: by name, and by id when the names are equal. Both names
      must be present: a `null` name makes the Java method throw. */
  function CompareTo(a: Project, b: Project): (r: int)
    requires a.name.Some? && b.name.Some?
    ensures r == 0 <==> Equals(a, b)
    ensures a.name == b.name ==> (r < 0 <==> a.id < b.id)
    ensures a.name != b.name ==> (r < 0 <==> StringCompare(a.name.value, b.name.value) < 0)
  {
    StringCompareZero(a.name.value, b.name.value);
    if a.name.value == b.name.value then LongCompare(a.id, b.id)
    else StringCompare(a.name.value, b.name.value)
  }

  /** `compareTo` is zero exactly for projects that are `equals`, swapping
      the arguments negates it, and it is transitive: a total order on
      projects with names. */
  lemma CompareToIsTotalOrder(a: Project, b: Project, c: Project)
    requires a.name.Some? && b.name.Some? && c.name.Some?
    ensures CompareTo(a, b) == 0 <==> Equals(a, b)
    ensures CompareTo(a, b) == -CompareTo(b, a)
    ensures CompareTo(a, b) < 0 && CompareTo(b, c) < 0 ==> CompareTo(a, c) < 0
  {
    StringCompareZero(a.name.value, b.name.value);
    StringCompareZero(b.name.value, c.name.value);
    StringCompareZero(a.name.value, c.name.value);
    StringCompareAntisymmetric(a.name.value, b.name.value);
    if CompareTo(a, b) < 0 && CompareTo(b, c) < 0 {
      var x, y, z := a.name.value, b.name.value, c.name.value;
      if x != y && y != z {
        StringCompareTransitive(x, y, z);
      }
    }
  }

  /** `getGitHubIntegration`: the repository name while an integration is
      present and not soft-deleted, `null` otherwise. */
  function RepositoryName(p: Project): (r: Option<string>)
    ensures r.Some? <==> p.gitHubIntegration.Some? && p.gitHubIntegration.value.active.None?
    ensures r.Some? ==> r.value == p.gitHubIntegration.value.repositoryFullName
  {
    match p.gitHubIntegration
    case Some(g) => if g.active == None then Some(g.repositoryFullName) else None
    case None => None
  }
}

=== FILE: numbers.dfy ===
/** The ranges of Java's fixed-width integers, shared by the commit parser
    (`Long.parseLong`) and the older project entity (`hashCode`). */
module JavaNumbers {
  /** The smallest and largest values of a Java `long`. */
  const LongMin: int := -0x8000_0000_0000_0000
  const LongMax: int := 0x7FFF_FFFF_FFFF_FFFF

  const TwoTo32: int := 0x1_0000_0000
  const TwoTo64: int := 0x1_0000_0000_0000_0000

  predicate IsLong(x: int) { LongMin <= x <= LongMax }
  predicate IsInt(x: int) { -0x8000_0000 <= x < 0x8000_0000 }
}

=== FILE: project_entity.dfy ===
/** The project entity of the server package: membership search and removal
    over the list of project-workspace links, the trimming setters, the
    null-means-unchanged update, the deprecated one-argument constructor with
    its default status lanes, and the first linked repository. */
module ProjectEntity {
  import opened Optional
  import opened Seqs

  type UserId = int

  /** The link between a project and one user's workspace. */
  datatype ProjectWorkspace = ProjectWorkspace(userId: UserId, workspaceId: int)

  /** A status lane of a project, in the constructor's argument order. */
  datatype Status = Status(name: string, color: int, ordinal: int, isFinal: bool, isBegin: bool)

  /** The repository binding of a project. */
  datatype ProjectIntegration = ProjectIntegration(repositoryFullName: string)

  /** The fields of a project this model needs. `users` is the set view of
      the same join table that `projectWorkspaces` lists; `taskCounter` is the
      current value of the project's task-number counter. */
  datatype Project = Project(
    name: string,
    description: string,
    projectWorkspaces: seq<ProjectWorkspace>,
    users: set<UserId>,
    statuses: seq<Status>,
    taskCounter: nat,
    githubProjectIntegrations: seq<ProjectIntegration>)

  /** The body of an update request; `None` stands for a `null` field. */
  datatype UpdateProject = UpdateProject(name: Option<string>, description: Option<string>)

  /** What `removeMember` returns together with the project it leaves. */
  datatype Removal = Removal(removed: Option<ProjectWorkspace>, project: Project)

  // ---------------------------------------------------------------------
  // String.trim

  /** `String.trim` removes characters whose code is at most U+0020. */
  predicate Blank(c: char) { c <= ' ' }

  /** The first loop of `String.trim`: from `st` on, skip blank characters. */
  function SkipBlank(s: string, st: nat): (r: nat)
    requires st <= |s|
    ensures st <= r <= |s|
    ensures forall k :: st <= k < r ==> Blank(s[k])
    ensures r == |s| || !Blank(s[r])
    decreases |s| - st
  {
    if st < |s| && Blank(s[st]) then SkipBlank(s, st + 1) else st
  }

  /** The second loop of `String.trim`: from `len` down to `st`, drop blank
      characters. */
  function DropBlank(s: string, st: nat, len: nat): (r: nat)
    requires st <= len <= |s|
    ensures st <= r <= len
    ensures forall k :: r <= k < len ==> Blank(s[k])
    ensures r == st || !Blank(s[r - 1])
    decreases len
  {
    if st < len && Blank(s[len - 1]) then DropBlank(s, st, len - 1) else len
  }

  /** `r` is what remains of `s` after removing `i` blank characters in front
      and only blank characters behind. */
  ghost predicate TrimmedAt(s: string, r: string, i: nat)
  {
    && i + |r| <= |s| && r == s[i..i + |r|]
    && (forall k :: 0 <= k < i ==> Blank(s[k]))
    && (forall k :: i + |r| <= k < |s| ==> Blank(s[k]))
  }

  /** `String.trim`: the infix of `s` left after removing blank characters at
      both ends; it starts and ends with a non-blank character or is empty. */
  function Trim(s: string): (r: string)
    ensures exists i :: TrimmedAt(s, r, i)
    ensures |r| == 0 || (!Blank(r[0]) && !Blank(r[|r| - 1]))
  {
    var st := SkipBlank(s, 0);
    var len := DropBlank(s, st, |s|);
    assert TrimmedAt(s, s[st..len], st);
    s[st..len]
  }

  /** Trimming a trimmed string changes nothing. */
  lemma TrimIdempotent(s: string)
    ensures Trim(Trim(s)) == Trim(s)
  {
    var r := Trim(s);
    assert SkipBlank(r, 0) == 0;
    assert DropBlank(r, 0, |r|) == |r|;
    assert r[0..|r|] == r;
  }

  // ---------------------------------------------------------------------
  // Constructors and setters

  /** `Project(name, description)`: both values trimmed, no members, no
      statuses, a fresh task counter. */
  function NewProject(name: string, description: string): (p: Project)
    ensures p.name == Trim(name) && p.description == Trim(description)
    ensures p.projectWorkspaces == [] && p.users == {} && p.statuses == []
    ensures p.taskCounter == 0 && p.githubProjectIntegrations == []
  {
    Project(Trim(name), Trim(description), [], {}, [], 0, [])
  }

  /** `setName`: stores the trimmed argument, nothing else changes. */
  function SetName(p: Project, name: string): (r: Project)
    ensures r.name == Trim(name) && r.(name := p.name) == p
  {
    p.(name := Trim(name))
  }

  /** `setDescription`: stores the trimmed argument, nothing else changes. */
  function SetDescription(p: Project, description: string): (r: Project)
    ensures r.description == Trim(description) && r.(description := p.description) == p
  {
    p.(description := Trim(description))
  }

  /** `update`: a `null` field leaves its value alone, a present one goes
      through the trimming setter. */
  function Update(p: Project, u: UpdateProject): (r: Project)
    ensures u.name.None? ==> r.name == p.name
    ensures u.name.Some? ==> r.name == Trim(u.name.value)
    ensures u.description.None? ==> r.description == p.description
    ensures u.description.Some? ==> r.description == Trim(u.description.value)
    ensures r.(name := p.name, description := p.description) == p
  {
    var p1 := if u.name.Some? then SetName(p, u.name.value) else p;
    if u.description.Some? then SetDescription(p1, u.description.value) else p1
  }

  /** Applying the same update twice is the same as applying it once, and an
      update with only `null` fields changes nothing. */
  lemma UpdateIdempotent(p: Project, u: UpdateProject)
    ensures Update(Update(p, u), u) == Update(p, u)
    ensures Update(p, UpdateProject(None, None)) == p
  {
    if u.name.Some? {
      TrimIdempotent(u.name.value);
    }
    if u.description.Some? {
      TrimIdempotent(u.description.value);
    }
  }

  /** The deprecated `Project(name)`: an empty description and the three
      default lanes "To Do" (the begin lane), "In Progress" and "Done" (the
      final lane), with ordinals 0, 1, 2. */
  function DefaultProject(name: string): (p: Project)
    ensures p.name == Trim(name) && p.description == ""
    ensures |p.statuses| == 3
    ensures p.statuses[0].name == "To Do" && p.statuses[1].name == "In Progress" && p.statuses[2].name == "Done"
    ensures forall i :: 0 <= i < |p.statuses| ==> p.statuses[i].ordinal == i
    ensures forall i :: 0 <= i < |p.statuses| ==> (p.statuses[i].isBegin <==> i == 0)
    ensures forall i :: 0 <= i < |p.statuses| ==> (p.statuses[i].isFinal <==> i == 2)
  {
    NewProject(name, "").(statuses := DefaultStatuses)
  }

  /** The deprecated constructor delegates to `Project(name, "")`: apart from
      its three lanes it is that project, with no members, a fresh counter
      and no integrations. */
  lemma DefaultProjectDelegates(name: string)
    ensures DefaultProject(name).(statuses := []) == NewProject(name, "")
    ensures DefaultProject(name).projectWorkspaces == [] && DefaultProject(name).users == {}
    ensures DefaultProject(name).taskCounter == 0 && DefaultProject(name).githubProjectIntegrations == []
  {
  }

  /** The lanes the deprecated constructor adds, in order. */
  const DefaultStatuses: seq<Status> :=
    [Status("To Do", 0, 0, false, true),
     Status("In Progress", 0, 1, false, false),
     Status("Done", 0, 2, true, false)]

  // ---------------------------------------------------------------------
  // Membership

  /** The deprecated `member`: index of the first project-workspace of the
      user, or -1. */
  function Member(p: Project, user: UserId): (r: int)
    ensures -1 <= r < |p.projectWorkspaces|
    ensures 0 <= r ==> p.projectWorkspaces[r].userId == user
    ensures forall i :: 0 <= i < |p.projectWorkspaces| && (r == -1 || i < r) ==>
              p.projectWorkspaces[i].userId != user
  {
    FirstIndex(p.projectWorkspaces, (pw: ProjectWorkspace) => pw.userId == user)
  }

  /** `member(user) != -1` exactly when some project-workspace belongs to the user. */
  lemma MemberFound(p: Project, user: UserId)
    ensures Member(p, user) != -1 <==>
            exists i :: 0 <= i < |p.projectWorkspaces| && p.projectWorkspaces[i].userId == user
  {
  }

  /** `isMember`: membership in the user set. When the user set and the
      workspace list come from the same table, it agrees with
      `member(user) != -1`. */
  function IsMember(p: Project, user: UserId): (r: bool)
    ensures UsersMatchWorkspaces(p) ==> (r <==> Member(p, user) != -1)
  {
    MemberFound(p, user);
    user in p.users
  }

  /** The user set is the join table's view of the project-workspaces. */
  ghost predicate UsersMatchWorkspaces(p: Project)
  {
    forall u :: u in p.users <==> exists i :: 0 <= i < |p.projectWorkspaces| && p.projectWorkspaces[i].userId == u
  }

  /** `List.remove(Object)`: drops the first element equal to `x`, if any. */
  function RemoveFirst<T(==)>(xs: seq<T>, x: T): (r: seq<T>)
    ensures x !in xs ==> r == xs
    ensures x in xs ==> |r| == |xs| - 1
    decreases |xs|
  {
    if |xs| == 0 then []
    else if xs[0] == x then xs[1..]
    else [xs[0]] + RemoveFirst(xs[1..], x)
  }

  /** `List.remove(Object)` takes away one occurrence of the element and
      keeps every other element as often as it was there. */
  lemma {:induction false} RemoveFirstCounts<T>(xs: seq<T>, x: T)
    ensures multiset(RemoveFirst(xs, x)) == multiset(xs) - multiset{x}
    decreases |xs|
  {
    if |xs| > 0 {
      assert xs == [xs[0]] + xs[1..];
      if xs[0] != x {
        RemoveFirstCounts(xs[1..], x);
      }
    }
  }

  /** Removing an element that has no equal in front of it removes exactly
      its index. */
  lemma {:induction false} RemoveFirstAt<T>(xs: seq<T>, i: nat)
    requires i < |xs|
    requires forall j :: 0 <= j < i ==> xs[j] != xs[i]
    ensures RemoveFirst(xs, xs[i]) == xs[..i] + xs[i + 1..]
    decreases i
  {
    if i > 0 {
      var tail := xs[1..];
      assert tail[i - 1] == xs[i];
      RemoveFirstAt(tail, i - 1);
      assert xs[..i] == [xs[0]] + tail[..i - 1];
      assert xs[i + 1..] == tail[i..];
    }
  }

  /** `removeMember`: finds the first project-workspace of the user, removes
      it from the list and returns it; without one, returns `null` and leaves
      the project alone. Nothing but the workspace list changes, the other
      links keep their order, and putting the removed link back at its old
      index restores the list. */
  function RemoveMember(p: Project, user: UserId): (r: Removal)
    ensures r.removed.Some? <==> Member(p, user) != -1
    ensures r.removed.None? ==> r.project == p
    ensures r.removed.Some? ==>
              var i := Member(p, user);
              && r.removed.value == p.projectWorkspaces[i]
              && r.project.projectWorkspaces == p.projectWorkspaces[..i] + p.projectWorkspaces[i + 1..]
              && p.projectWorkspaces == r.project.projectWorkspaces[..i] + [r.removed.value] + r.project.projectWorkspaces[i..]
    ensures r.project.(projectWorkspaces := p.projectWorkspaces) == p
  {
    var ws := p.projectWorkspaces;
    var i := FirstIndex(ws, (pw: ProjectWorkspace) => pw.userId == user);
    if i == -1 then
      Removal(None, p)
    else
      var found := ws[i];
      RemoveFirstAt(ws, i);
      var rest := RemoveFirst(ws, found);
      assert rest[..i] == ws[..i] && rest[i..] == ws[i + 1..];
      assert ws == ws[..i] + [found] + ws[i + 1..];
      Removal(Some(found), p.(projectWorkspaces := rest))
  }

  // ---------------------------------------------------------------------
  // Repository binding

  /** The deprecated `getGitHubIntegration`: the first integration's
      repository name, `null` when there is none. */
  function GitHubIntegration(p: Project): (r: Option<string>)
    ensures r.None? <==> |p.githubProjectIntegrations| == 0
    ensures r.Some? ==> r.value == p.githubProjectIntegrations[0].repositoryFullName
  {
    if |p.githubProjectIntegrations| == 0 then None
    else Some(p.githubProjectIntegrations[0].repositoryFullName)
  }

  /** A new project has no repository; renaming, describing, updating and
      removing a member never change the repository a project reports. */
  lemma GitHubIntegrationKept(p: Project, name: string, description: string, u: UpdateProject, user: UserId)
    ensures GitHubIntegration(NewProject(name, description)) == None
    ensures GitHubIntegration(DefaultProject(name)) == None
    ensures GitHubIntegration(SetName(p, name)) == GitHubIntegration(p)
    ensures GitHubIntegration(SetDescription(p, description)) == GitHubIntegration(p)
    ensures GitHubIntegration(Update(p, u)) == GitHubIntegration(p)
    ensures GitHubIntegration(RemoveMember(p, user).project) == GitHubIntegration(p)
  {
  }
}

=== FILE: properties.dfy ===
/** Properties relating several webhook deliveries: every handler keeps the
    store invariant, duplicate deliveries of `opened` and of a
    push change nothing more, the issue life cycle opened-edited-deleted
    leaves tasks and links as they were, and the push directives of the
    commit-message grammar reach the task they name. */
module SyncProperties {
  import opened Optional
  import opened JavaNumbers
  import opened ProjectEntity
  import opened CommitDirective
  import opened WebhookStore
  import opened CommitSync
  import opened GitHubWebhook

  // ---------------------------------------------------------------------
  // Integrity

  lemma IssueKeepsValid(s: Store, systemUser: UserId, data: Payload)
    requires Valid(s)
    ensures Valid(HandleIssue(s, systemUser, data))
  {
    var r := HandleIssue(s, systemUser, data);
    if data.repository in s.integrations {
      var link := LinkKey(data.repository, data.issue.number);
      var p := s.integrations[data.repository];
      if link !in s.issueLinks && data.action == "opened" {
        forall k | k in r.tasks
          ensures k.project in r.projects && 1 <= k.number <= r.projects[k.project].taskCounter
        {
          if k.project == p {
            assert r.projects[p].taskCounter == s.projects[p].taskCounter + 1;
          } else {
            assert r.projects[k.project] == s.projects[k.project];
          }
        }
      }
    }
  }

  /** Every delivery keeps installation rows unique, integrations and links
      pointing at existing projects, and task numbers within their project's
      counter. */
  lemma HandleWebhookKeepsValid(s: Store, systemUser: UserId, event: string, data: Payload)
    requires Valid(s)
    ensures Valid(HandleWebhook(s, systemUser, event, data).store)
  {
    if event == "issues" {
      IssueKeepsValid(s, systemUser, data);
    } else if event == "installation" {
      HandleInstallationKeepsUnique(s, data);
    }
  }

  // ---------------------------------------------------------------------
  // Issues

  /** A new issue's task takes a number no task of the project has yet. */
  lemma OpenedTaskIsFresh(s: Store, systemUser: UserId, data: Payload)
    requires Valid(s) && data.repository in s.integrations
    requires data.action == "opened" && LinkKey(data.repository, data.issue.number) !in s.issueLinks
    requires !IssueFails(s, data)
    ensures var p := s.integrations[data.repository];
            var r := HandleIssue(s, systemUser, data);
            var k := r.issueLinks[LinkKey(data.repository, data.issue.number)];
            && k.project == p && k !in s.tasks
            && r.tasks.Keys == s.tasks.Keys + {k}
            && r.tasks[k] == Task(data.issue.title, data.issue.body, BeginLane, None, systemUser, false)
  {
  }

  /** A second delivery of the same `opened` event changes nothing once the
      first one has linked the issue, that is unless the first one threw. */
  lemma OpenedTwiceIsOpenedOnce(s: Store, systemUser: UserId, data: Payload)
    requires Valid(s) && data.action == "opened" && !IssueFails(s, data)
    ensures var once := HandleIssue(s, systemUser, data);
            Valid(once) && HandleIssue(once, systemUser, data) == once
  {
    IssueKeepsValid(s, systemUser, data);
  }

  /** Opening an unlinked issue, editing it and deleting it leaves the tasks
      and the issue links as they were; only the project's counter has
      moved on. */
  lemma OpenEditDeleteRoundTrip(s: Store, systemUser: UserId, data: Payload)
    requires Valid(s) && data.repository in s.integrations
    requires data.action == "opened" && LinkKey(data.repository, data.issue.number) !in s.issueLinks
    requires !IssueFails(s, data)
    ensures var s1 := HandleIssue(s, systemUser, data);
            Valid(s1) &&
            var s2 := HandleIssue(s1, systemUser, data.(action := "edited"));
            Valid(s2) &&
            var s3 := HandleIssue(s2, systemUser, data.(action := "deleted"));
            && s3.tasks == s.tasks
            && s3.issueLinks == s.issueLinks
            && s3.integrations == s.integrations && s3.pullLinks == s.pullLinks
  {
    var link := LinkKey(data.repository, data.issue.number);
    var s1 := HandleIssue(s, systemUser, data);
    IssueKeepsValid(s, systemUser, data);
    var s2 := HandleIssue(s1, systemUser, data.(action := "edited"));
    IssueKeepsValid(s1, systemUser, data.(action := "edited"));
    var k := s1.issueLinks[link];
    assert k !in s.tasks;
    assert s2.issueLinks == s1.issueLinks;
    assert s2.tasks.Keys == s1.tasks.Keys;
    var s3 := HandleIssue(s2, systemUser, data.(action := "deleted"));
    assert s3.tasks == s2.tasks - {k};
    assert s3.tasks == s.tasks by {
      forall k' | k' in s.tasks
        ensures s3.tasks[k'] == s.tasks[k']
      {
        assert k' != k;
      }
    }
    assert s3.issueLinks == s.issueLinks;
  }

  // ---------------------------------------------------------------------
  // Push

  /** Handling the same push twice is handling it once: each directive sets
      a lane, it does not toggle one. */
  lemma PushTwiceIsPushOnce(s: Store, data: Payload)
    ensures var once := HandlePush(s, data);
            HandlePush(once.store, data) == once
  {
    var once := HandlePush(s, data);
    var twice := HandlePush(once.store, data);
    if data.repository in s.integrations {
      assert twice.store.tasks == once.store.tasks;
    }
  }

  /** A push whose only commit reads `<prefix>!<n>`, with no `!` in the
      prefix and no `reopen` right before the `!`, moves active task `n` of
      the repository's project to the final lane and is accepted. */
  lemma BareReferenceClosesTask(s: Store, data: Payload, prefix: string, n: nat)
    requires data.repository in s.integrations
    requires n <= LongMax
    requires forall k :: 0 <= k < |prefix| ==> prefix[k] != '!'
    requires KeywordBefore(prefix, |prefix|) != Reopen
    requires data.commits == [prefix + "!" + ToDecimal(n)]
    ensures var k := TaskKey(s.integrations[data.repository], n);
            var o := HandlePush(s, data);
            && o.reply == Accepted
            && (k in s.tasks && !s.tasks[k].softDeleted ==> o.store.tasks[k] == s.tasks[k].(lane := FinalLane))
            && (k !in s.tasks ==> o.store == s)
  {
    BareReferenceParses(prefix, n);
    PushOfOneMove(s, data, false, n);
  }

  /** A push whose only commit reads `<prefix>reopen!<n>`, with no `!` in the
      prefix, moves active task `n` of the repository's project to the begin
      lane and is accepted. */
  lemma ReopenReferenceReopensTask(s: Store, data: Payload, prefix: string, n: nat)
    requires data.repository in s.integrations
    requires n <= LongMax
    requires forall k :: 0 <= k < |prefix| ==> prefix[k] != '!'
    requires data.commits == [prefix + "reopen!" + ToDecimal(n)]
    ensures var k := TaskKey(s.integrations[data.repository], n);
            var o := HandlePush(s, data);
            && o.reply == Accepted
            && (k in s.tasks && !s.tasks[k].softDeleted ==> o.store.tasks[k] == s.tasks[k].(lane := BeginLane))
            && (k !in s.tasks ==> o.store == s)
  {
    ReopenReferenceParses(prefix, n);
    PushOfOneMove(s, data, true, n);
  }

  /** A push of one commit carrying a move of task `n`. */
  lemma PushOfOneMove(s: Store, data: Payload, open: bool, n: nat)
    requires data.repository in s.integrations
    requires |data.commits| == 1 && ParseCommit(data.commits[0]) == Move(open, n)
    ensures var k := TaskKey(s.integrations[data.repository], n);
            var o := HandlePush(s, data);
            && o.reply == Accepted
            && (k in s.tasks && !s.tasks[k].softDeleted ==>
                  o.store.tasks[k] == s.tasks[k].(lane := if open then BeginLane else FinalLane))
            && (k !in s.tasks ==> o.store == s)
  {
    var cmds := Directives(data.commits);
    assert cmds == [Move(open, n)];
    assert Processed(cmds) == cmds;
    var o := HandlePush(s, data);
    var k := TaskKey(s.integrations[data.repository], n);
    if k !in s.tasks {
      forall k' | k' in s.tasks
        ensures o.store.tasks[k'] == s.tasks[k']
      {
        assert LastMove(cmds, k'.number) == (if k'.number == n then Some(open) else None);
      }
      assert o.store.tasks == s.tasks;
    }
  }

  // ---------------------------------------------------------------------
  // Installations and repositories

  /** `suspend` twice is `suspend` once, and `unsuspend` after `suspend`
      restores an installation that was not suspended. */
  lemma SuspendThenUnsuspend(s: Store, data: Payload)
    requires data.action == "suspend"
    ensures var once := HandleInstallation(s, data);
            HandleInstallation(once, data) == once
    ensures var i := InstallationRow(s, data.installationId);
            i != -1 && !s.installations[i].suspended ==>
              HandleInstallation(HandleInstallation(s, data), data.(action := "unsuspend")) == s
  {
    var i := InstallationRow(s, data.installationId);
    var once := HandleInstallation(s, data);
    if i != -1 {
      assert forall j :: 0 <= j < |s.installations| ==>
               once.installations[j].installationId == s.installations[j].installationId;
      assert once.installations[i].installationId == data.installationId;
      var r := InstallationRow(once, data.installationId);
      assert r != -1;
      assert !(r < i);
      assert !(i < r);
    }
  }

  /** `deleted` removes the row of the installation: the table loses
      exactly that row, and in a table with unique ids no row with the id is
      left. */
  lemma DeletedRemovesOneRow(s: Store, data: Payload)
    requires data.action == "deleted" && InstallationRow(s, data.installationId) != -1
    ensures var r := HandleInstallation(s, data);
            && |r.installations| == |s.installations| - 1
            && multiset(r.installations) == multiset(s.installations) - multiset{s.installations[InstallationRow(s, data.installationId)]}
    ensures UniqueInstallations(s.installations) ==>
              var r := HandleInstallation(s, data);
              forall j :: 0 <= j < |r.installations| ==> r.installations[j].installationId != data.installationId
  {
    var i := InstallationRow(s, data.installationId);
    if UniqueInstallations(s.installations) {
      HandleInstallationKeepsUnique(s, data);
    }
    assert s.installations == s.installations[..i] + [s.installations[i]] + s.installations[i + 1..];
  }

  /** Removing the same repositories twice is removing them once. */
  lemma RepositoriesRemovedTwice(s: Store, data: Payload)
    ensures var once := HandleInstallationRepositories(s, data);
            HandleInstallationRepositories(once, data) == once
  {
  }
}

=== FILE: push.dfy ===
/** The push handler: every commit message of a push may carry a directive
    `reopen!n`, `close!n` or `!n` that moves task `n` of the repository's
    project to the begin or the final lane. Messages are handled in order and
    each move is saved at once, so a number that overflows `Long.parseLong`
    aborts the delivery with the earlier moves already stored. */
module CommitSync {
  import opened Optional
  import opened CommitDirective
  import opened WebhookStore

  /** `findByStatusProjectAndNumberAndActiveNull(..).ifPresent(changeStatus)`:
      only an existing, not soft-deleted task of the project moves. */
  function MoveTask(s: Store, project: ProjectId, open: bool, number: int): (r: Store)
    ensures r.(tasks := s.tasks) == s && r.tasks.Keys == s.tasks.Keys
    ensures forall k :: k in s.tasks ==>
              r.tasks[k] == if k == TaskKey(project, number) && !s.tasks[k].softDeleted
                            then s.tasks[k].(lane := if open then BeginLane else FinalLane)
                            else s.tasks[k]
  {
    var k := TaskKey(project, number);
    if k in s.tasks && !s.tasks[k].softDeleted then EditTask(s, k, ChangeStatus(open)) else s
  }

  /** What each commit message of a push asks for, in commit order. */
  function Directives(msgs: seq<string>): (r: seq<Command>)
    ensures |r| == |msgs| && forall i :: 0 <= i < |msgs| ==> r[i] == ParseCommit(msgs[i])
  {
    seq(|msgs|, i requires 0 <= i < |msgs| => ParseCommit(msgs[i]))
  }

  /** The directives handled before the first overflowing number: a prefix
      of `cmds` without an overflow, followed in `cmds` by an overflow or by
      nothing. */
  function Processed(cmds: seq<Command>): (r: seq<Command>)
    ensures |r| <= |cmds| && r == cmds[..|r|]
    ensures forall i :: 0 <= i < |r| ==> !r[i].Overflow?
    ensures |r| < |cmds| ==> cmds[|r|].Overflow?
    decreases |cmds|
  {
    if |cmds| == 0 || cmds[0].Overflow? then []
    else [cmds[0]] + Processed(cmds[1..])
  }

  /** The last directive about task `number` in `cmds`: `Some(open)` when
      there is one; a later directive overrides an earlier one. */
  function LastMove(cmds: seq<Command>, number: int): Option<bool>
    decreases |cmds|
  {
    if |cmds| == 0 then None
    else
      var later := LastMove(cmds[1..], number);
      if later.Some? then later
      else if cmds[0].Move? && cmds[0].number == number then Some(cmds[0].open)
      else None
  }

  /** The task `t` with key `k` after the directives `cmds` of a push to the
      repository of `project`. */
  function AfterMoves(t: Task, k: TaskKey, project: ProjectId, cmds: seq<Command>): Task
  {
    var m := LastMove(cmds, k.number);
    if k.project == project && !t.softDeleted && m.Some? then t.(lane := if m.value then BeginLane else FinalLane) else t
  }

  /** The loop over the directives of a push. It fails exactly when some
      number overflows; every active task of the project ends in the lane of
      the last directive about it among those handled before that, and
      nothing else in the store changes. */
  function ApplyDirectives(s: Store, project: ProjectId, cmds: seq<Command>): (o: Outcome)
    ensures o.reply == if |Processed(cmds)| < |cmds| then Failed else Accepted
    ensures o.store.(tasks := s.tasks) == s
    ensures o.store.tasks.Keys == s.tasks.Keys
    ensures forall k :: k in s.tasks ==> o.store.tasks[k] == AfterMoves(s.tasks[k], k, project, Processed(cmds))
    decreases |cmds|
  {
    if |cmds| == 0 then Outcome(s, Accepted)
    else
      match cmds[0]
      case Overflow => Outcome(s, Failed)
      case NoCommand =>
        assert Processed(cmds) == [cmds[0]] + Processed(cmds[1..]);
        assert ([cmds[0]] + Processed(cmds[1..]))[1..] == Processed(cmds[1..]);
        ApplyDirectives(s, project, cmds[1..])
      case Move(open, n) =>
        MoveThenRest(s, project, cmds);
        ApplyDirectives(MoveTask(s, project, open, n), project, cmds[1..])
  }

  /** The last directive about a task among the handled ones is the last one
      after the first directive, or else the first directive itself. */
  lemma LastMoveOfFirst(cmds: seq<Command>, number: int)
    requires |cmds| > 0 && cmds[0].Move?
    ensures var later := LastMove(Processed(cmds[1..]), number);
            LastMove(Processed(cmds), number) ==
              if later.Some? then later else if cmds[0].number == number then Some(cmds[0].open) else None
  {
    var rest := Processed(cmds[1..]);
    assert Processed(cmds) == [cmds[0]] + rest;
    assert ([cmds[0]] + rest)[1..] == rest;
  }

  /** For one task: applying the first directive, then the rest, is
      applying all of them. */
  lemma MoveThenRestAt(t: Task, k: TaskKey, project: ProjectId, cmds: seq<Command>, moved: Task)
    requires |cmds| > 0 && cmds[0].Move?
    requires moved == if k == TaskKey(project, cmds[0].number) && !t.softDeleted
                      then t.(lane := if cmds[0].open then BeginLane else FinalLane) else t
    ensures AfterMoves(moved, k, project, Processed(cmds[1..])) == AfterMoves(t, k, project, Processed(cmds))
  {
    LastMoveOfFirst(cmds, k.number);
  }

  /** Handling a directive and then the remaining ones is handling all of
      them: the later directives about a task override the first one. */
  lemma MoveThenRest(s: Store, project: ProjectId, cmds: seq<Command>)
    requires |cmds| > 0 && cmds[0].Move?
    ensures forall k :: k in s.tasks ==>
              AfterMoves(MoveTask(s, project, cmds[0].open, cmds[0].number).tasks[k], k, project, Processed(cmds[1..])) ==
              AfterMoves(s.tasks[k], k, project, Processed(cmds))
  {
    var s1 := MoveTask(s, project, cmds[0].open, cmds[0].number);
    forall k | k in s.tasks
      ensures AfterMoves(s1.tasks[k], k, project, Processed(cmds[1..])) == AfterMoves(s.tasks[k], k, project, Processed(cmds))
    {
      MoveThenRestAt(s.tasks[k], k, project, cmds, s1.tasks[k]);
    }
  }

  /** `handlePush`: a push to a repository without an integration is accepted
      and changes nothing. Otherwise the commit messages are handled in
      order: the delivery fails exactly when some message's number overflows
      a `long`; each active task of the integration's project ends in the
      lane of the last directive about it among the messages before that;
      nothing else changes. */
  function HandlePush(s: Store, data: Payload): (o: Outcome)
    ensures data.repository !in s.integrations ==> o == Outcome(s, Accepted)
    ensures data.repository in s.integrations ==>
              var cmds := Directives(data.commits);
              && (o.reply == Failed <==> exists i :: 0 <= i < |data.commits| && ParseCommit(data.commits[i]).Overflow?)
              && o.reply != Unauthorized
              && o.store.(tasks := s.tasks) == s
              && o.store.tasks.Keys == s.tasks.Keys
              && forall k :: k in s.tasks ==>
                   o.store.tasks[k] == AfterMoves(s.tasks[k], k, s.integrations[data.repository], Processed(cmds))
  {
    if data.repository !in s.integrations then Outcome(s, Accepted)
    else
      var cmds := Directives(data.commits);
      var o := ApplyDirectives(s, s.integrations[data.repository], cmds);
      assert (exists i :: 0 <= i < |data.commits| && ParseCommit(data.commits[i]).Overflow?) ==> |Processed(cmds)| < |cmds|;
      o
  }
}

=== FILE: seqs.dfy ===
/** Sequence helpers shared by the project entity, the webhook store and the
    board grouping: the optional value the source writes as `null`, the
    "first element satisfying a predicate" search that `List.indexOf`-style
    loops and `stream().filter(..).findFirst()` perform, and the order-keeping
    filter of `Array.prototype.filter`. */
module Optional {

  /** A value the source may leave `null` (Java) or `undefined` (TypeScript). */
  datatype Option<+T> = None | Some(value: T)
}

module Seqs {

  /** Index of the first element of `xs` satisfying `p`, or -1 when there is none. */
  function FirstIndex<T>(xs: seq<T>, p: T -> bool): (r: int)
    ensures -1 <= r < |xs|
    ensures r == -1 <==> forall i :: 0 <= i < |xs| ==> !p(xs[i])
    ensures 0 <= r ==> p(xs[r]) && forall i :: 0 <= i < r ==> !p(xs[i])
    decreases |xs|
  {
    if |xs| == 0 then -1
    else if p(xs[0]) then 0
    else
      var r := FirstIndex(xs[1..], p);
      if r == -1 then -1 else r + 1
  }

  /** `a` can be obtained from `b` by deleting elements, keeping the order. */
  predicate SubsequenceOf<T(==,!new)>(a: seq<T>, b: seq<T>)
    decreases |b|
  {
    if |a| == 0 then true
    else if |b| == 0 then false
    else if a[0] == b[0] then SubsequenceOf(a[1..], b[1..])
    else SubsequenceOf(a, b[1..])
  }

  /** The elements of `xs` satisfying `p`, in their original order. */
  function Filter<T>(xs: seq<T>, p: T -> bool): seq<T>
    decreases |xs|
  {
    if |xs| == 0 then []
    else if p(xs[0]) then [xs[0]] + Filter(xs[1..], p)
    else Filter(xs[1..], p)
  }

  /** The filtered sequence keeps the order of `xs`, and holds every element
      satisfying `p` as often as `xs` does and no other element. */
  lemma {:induction false} FilterKeepsExactlySatisfying<T(!new)>(xs: seq<T>, p: T -> bool)
    ensures SubsequenceOf(Filter(xs, p), xs)
    ensures forall x :: multiset(Filter(xs, p))[x] == if p(x) then multiset(xs)[x] else 0
    decreases |xs|
  {
    if |xs| > 0 {
      FilterKeepsExactlySatisfying(xs[1..], p);
      assert xs == [xs[0]] + xs[1..];
    }
  }

  /** Filtering a sequence extended by one element extends the filtered
      sequence by that element exactly when it satisfies the predicate. */
  lemma {:induction false} FilterSnoc<T(!new)>(xs: seq<T>, x: T, p: T -> bool)
    ensures Filter(xs + [x], p) == Filter(xs, p) + (if p(x) then [x] else [])
    decreases |xs|
  {
    if |xs| == 0 {
      assert xs + [x] == [x];
    } else {
      assert (xs + [x])[1..] == xs[1..] + [x];
      FilterSnoc(xs[1..], x, p);
    }
  }
}

=== FILE: store.dfy ===
/** The persistent state the webhook handlers read and write, as one value:
    installations, repository integrations, projects, tasks and the links
    from external issues and pull requests to tasks. Each repository lookup
    of the service becomes a map lookup or a search of a sequence table. */
module WebhookStore {
  import opened Optional
  import opened Seqs
  import opened ProjectEntity

  type ProjectId = int

  /** Where `Task.changeStatus` puts a task: the project's begin lane when
      opened, its final lane when closed. Tasks in any other lane keep the id
      of their status. */
  datatype Lane = BeginLane | FinalLane | OtherLane(statusId: int)

  /** A task is known by its project and its number within the project. */
  datatype TaskKey = TaskKey(project: ProjectId, number: int)

  /** `softDeleted` is a set `active` timestamp: the push handler ignores
      such tasks. */
  datatype Task = Task(
    name: string,
    description: string,
    lane: Lane,
    assignee: Option<UserId>,
    createdBy: UserId,
    softDeleted: bool)

  /** An external issue or pull request, known by its repository and number;
      each integration owns one repository name, so the name stands for the
      integration. */
  datatype LinkKey = LinkKey(repository: string, number: int)

  /** A pull-request link: the task, whether the request was merged, and the
      request's last known title and body. */
  datatype PullLink = PullLink(task: TaskKey, merged: bool, title: string, description: string)

  /** An installation of the external app: its id, owning user, the external
      account login and the suspension flag. */
  datatype Installation = Installation(installationId: int, user: UserId, login: string, suspended: bool)

  datatype Store = Store(
    installations: seq<Installation>,
    integrations: map<string, ProjectId>,
    projects: map<ProjectId, ProjectEntity.Project>,
    tasks: map<TaskKey, Task>,
    issueLinks: map<LinkKey, TaskKey>,
    pullLinks: map<LinkKey, PullLink>)

  /** The parts of a delivery's JSON body the handlers read. Each event
      carries the fields it needs; `repositoriesRemoved` may be absent. */
  datatype Payload = Payload(
    action: string,
    repository: string,
    installationId: int,
    commits: seq<string>,
    issue: Issue,
    pullRequest: PullRequest,
    assigneeLogin: string,
    repositoriesRemoved: Option<seq<string>>)

  datatype Issue = Issue(number: int, title: string, body: string)

  datatype PullRequest = PullRequest(number: int, title: string, body: string, state: string, merged: bool)

  /** The HTTP answer to a delivery: 200, 401, or an error from an exception
      thrown while handling it. */
  datatype Reply = Accepted | Unauthorized | Failed

  /** The store after a delivery and the answer to it. */
  datatype Outcome = Outcome(store: Store, reply: Reply)

  /** Installation ids and account logins each name at most one row:
      `findByInstallationId` and `findByGitHubUsername` return a single
      `Optional` result, and would throw on a second matching row. */
  predicate UniqueInstallations(installations: seq<Installation>)
  {
    forall i, j :: 0 <= i < j < |installations| ==>
      installations[i].installationId != installations[j].installationId &&
      installations[i].login != installations[j].login
  }

  /** The invariant every handler relies on and keeps: installation rows are
      unique by id and by login, integrations and links point at existing
      projects, and every task number of a project has already been handed
      out by its counter (the handlers take new numbers only from
      `getIncrementCounter`). */
  ghost predicate Valid(s: Store)
  {
    && UniqueInstallations(s.installations)
    && (forall r :: r in s.integrations ==> s.integrations[r] in s.projects)
    && (forall k :: k in s.tasks ==> k.project in s.projects && 1 <= k.number <= s.projects[k.project].taskCounter)
    && (forall l :: l in s.issueLinks ==> s.issueLinks[l].project in s.projects)
    && (forall l :: l in s.pullLinks ==> s.pullLinks[l].task.project in s.projects)
  }

  /** A change to one task. */
  datatype TaskEdit =
    | Rename(name: string, description: string)   // `setName` and `setDescription`
    | ChangeStatus(open: bool)                    // `changeStatus(open)`
    | Assign(assignee: Option<UserId>)            // `setAssignee`

  function ApplyEdit(t: Task, e: TaskEdit): Task
  {
    match e
    case Rename(name, description) => t.(name := name, description := description)
    case ChangeStatus(open) => t.(lane := if open then BeginLane else FinalLane)
    case Assign(assignee) => t.(assignee := assignee)
  }

  /** Saves an edit of the task `k`; a link whose task is gone edits nothing. */
  function EditTask(s: Store, k: TaskKey, e: TaskEdit): (r: Store)
    ensures r.tasks.Keys == s.tasks.Keys
    ensures k in s.tasks ==> r.tasks[k] == ApplyEdit(s.tasks[k], e)
    ensures forall k' :: k' in s.tasks && k' != k ==> r.tasks[k'] == s.tasks[k']
    ensures r.(tasks := s.tasks) == s
  {
    if k in s.tasks then s.(tasks := s.tasks[k := ApplyEdit(s.tasks[k], e)]) else s
  }

  /** `findByGitHubUsername`: the installation of the login. */
  function InstallationOf(s: Store, login: string): (r: Option<Installation>)
    ensures r.None? <==> forall i :: 0 <= i < |s.installations| ==> s.installations[i].login != login
    ensures r.Some? ==> r.value in s.installations && r.value.login == login
    ensures r.Some? && UniqueInstallations(s.installations) ==>
              forall i :: 0 <= i < |s.installations| && s.installations[i].login == login ==> s.installations[i] == r.value
  {
    var i := FirstIndex(s.installations, (inst: Installation) => inst.login == login);
    if i == -1 then None else Some(s.installations[i])
  }

  /** The user an `assigned` event names: the owner of the installation with
      the assignee's login, when that user has a workspace in the project. */
  function AssigneeFor(s: Store, project: ProjectId, login: string): (r: Option<UserId>)
    requires project in s.projects
    ensures r.Some? <==> InstallationOf(s, login).Some? && Member(s.projects[project], InstallationOf(s, login).value.user) != -1
    ensures r.Some? ==> r.value == InstallationOf(s, login).value.user
  {
    match InstallationOf(s, login)
    case None => None
    case Some(inst) => if Member(s.projects[project], inst.user) != -1 then Some(inst.user) else None
  }

  /** Editing a task keeps the store valid. */
  lemma EditTaskKeepsValid(s: Store, k: TaskKey, e: TaskEdit)
    requires Valid(s)
    ensures Valid(EditTask(s, k, e))
  {
  }
}

=== FILE: webhook.dfy ===
/** The webhook service: the signature check, the dispatcher over event
    names, and the handlers for installation, repository-removal, issue and
    pull-request events. The push handler lives in `CommitSync`. */
module GitHubWebhook {
  import opened Optional
  import opened Seqs
  import opened ProjectEntity
  import opened WebhookStore
  import opened CommitSync

  // ---------------------------------------------------------------------
  // Signature

  /** `isAuthorized`: the signature header must equal `"sha256="` followed by
      the hex HMAC-SHA256 of the raw body under the shared key. The HMAC is a
      parameter; comparing the UTF-8 bytes of two strings is comparing the
      strings. */
  function IsAuthorized(hmacHex: string -> string, token: string, body: string): (r: bool)
    ensures r <==> |token| >= 7 && token[..7] == "sha256=" && token[7..] == hmacHex(body)
  {
    var expected := "sha256=" + hmacHex(body);
    assert expected[..7] == "sha256=" && expected[7..] == hmacHex(body);
    token == expected
  }

  /** A token is accepted for one body only: if it is accepted for two bodies
      their HMACs coincide. */
  lemma AuthorizedForOneDigest(hmacHex: string -> string, token: string, body1: string, body2: string)
    requires IsAuthorized(hmacHex, token, body1) && IsAuthorized(hmacHex, token, body2)
    ensures hmacHex(body1) == hmacHex(body2)
  {
  }

  // ---------------------------------------------------------------------
  // Installation lifecycle

  /** The row `findByInstallationId` returns: the row with the id, which in
      a table with unique ids is the only one. */
  function InstallationRow(s: Store, id: int): (r: int)
    ensures -1 <= r < |s.installations|
    ensures r == -1 <==> forall i :: 0 <= i < |s.installations| ==> s.installations[i].installationId != id
    ensures 0 <= r ==> s.installations[r].installationId == id &&
                       forall i :: 0 <= i < r ==> s.installations[i].installationId != id
    ensures 0 <= r && UniqueInstallations(s.installations) ==>
              forall i :: 0 <= i < |s.installations| && i != r ==> s.installations[i].installationId != id
  {
    FirstIndex(s.installations, (inst: Installation) => inst.installationId == id)
  }

  /** `handleInstallation`: for a known installation id, `suspend` and
      `unsuspend` set its flag and `deleted` removes its row; an unknown id
      or any other action changes nothing. Only the installation table
      changes, and every other row keeps its place. */
  function HandleInstallation(s: Store, data: Payload): (r: Store)
    ensures r.(installations := s.installations) == s
    ensures var i := InstallationRow(s, data.installationId);
            if i == -1 || data.action !in {"suspend", "unsuspend", "deleted"} then r == s
            else if data.action == "deleted" then r.installations == s.installations[..i] + s.installations[i + 1..]
            else r.installations == s.installations[i := s.installations[i].(suspended := data.action == "suspend")]
  {
    var i := InstallationRow(s, data.installationId);
    if i == -1 then s
    else
      var inst := s.installations[i];
      match data.action
      case "suspend" => s.(installations := s.installations[i := inst.(suspended := true)])
      case "unsuspend" => s.(installations := s.installations[i := inst.(suspended := false)])
      case "deleted" => s.(installations := s.installations[..i] + s.installations[i + 1..])
      case _ => s
  }

  /** Cutting one row out of a table keeps its ids and logins unique. */
  lemma DropKeepsUnique(a: seq<Installation>, i: nat)
    requires i < |a| && UniqueInstallations(a)
    ensures UniqueInstallations(a[..i] + a[i + 1..])
  {
    var b := a[..i] + a[i + 1..];
    forall x, y | 0 <= x < y < |b|
      ensures b[x].installationId != b[y].installationId && b[x].login != b[y].login
    {
      var x' := if x < i then x else x + 1;
      var y' := if y < i then y else y + 1;
      assert b[x] == a[x'] && b[y] == a[y'];
    }
  }

  /** `handleInstallation` keeps the table unique by id and by login, and
      after `deleted` no row with the id is left. */
  lemma HandleInstallationKeepsUnique(s: Store, data: Payload)
    requires UniqueInstallations(s.installations)
    ensures UniqueInstallations(HandleInstallation(s, data).installations)
    ensures data.action == "deleted" ==>
              forall j :: 0 <= j < |HandleInstallation(s, data).installations| ==>
                HandleInstallation(s, data).installations[j].installationId != data.installationId
  {
    var i := InstallationRow(s, data.installationId);
    var r := HandleInstallation(s, data);
    if i != -1 && data.action == "deleted" {
      DropKeepsUnique(s.installations, i);
      forall j | 0 <= j < |r.installations|
        ensures r.installations[j].installationId != data.installationId
      {
        var j' := if j < i then j else j + 1;
        assert r.installations[j] == s.installations[j'];
      }
    } else if i != -1 && data.action in {"suspend", "unsuspend"} {
      assert forall j :: 0 <= j < |s.installations| ==>
               r.installations[j].installationId == s.installations[j].installationId &&
               r.installations[j].login == s.installations[j].login;
    }
  }

  // ---------------------------------------------------------------------
  // Repository removal

  /** `handleInstallationRepositories`: without a removal list nothing
      changes; otherwise exactly the integrations of the listed repositories
      go, whether or not every listed name had one. */
  function HandleInstallationRepositories(s: Store, data: Payload): (r: Store)
    ensures r.(integrations := s.integrations) == s
    ensures data.repositoriesRemoved.None? ==> r == s
    ensures data.repositoriesRemoved.Some? ==>
              forall name :: name in r.integrations <==>
                name in s.integrations && name !in data.repositoriesRemoved.value
    ensures forall name :: name in r.integrations ==> r.integrations[name] == s.integrations[name]
  {
    match data.repositoriesRemoved
    case None => s
    case Some(names) => s.(integrations := s.integrations - set name | name in names)
  }

  // ---------------------------------------------------------------------
  // Issues

  /** The task an `opened` issue event creates in `project`: the issue's
      title and body, the begin lane, no assignee, created by the system
      user. */
  function IssueTask(issue: Issue, systemUser: UserId): Task
  {
    Task(issue.title, issue.body, BeginLane, None, systemUser, false)
  }

  /** `opened` for an issue without a link: the project's counter hands out
      the next task number, the new task gets it, and the issue is linked to
      that task. The counter moves first, so a project without statuses,
      where reading the first status throws, keeps only the counter step. */
  function OpenIssue(s: Store, systemUser: UserId, repo: string, issue: Issue): (r: Store)
    requires repo in s.integrations && s.integrations[repo] in s.projects
    ensures var p := s.integrations[repo];
            var k := TaskKey(p, s.projects[p].taskCounter + 1);
            && r.projects == s.projects[p := s.projects[p].(taskCounter := s.projects[p].taskCounter + 1)]
            && r.(tasks := s.tasks, issueLinks := s.issueLinks, projects := s.projects) == s
            && (|s.projects[p].statuses| == 0 ==> r.tasks == s.tasks && r.issueLinks == s.issueLinks)
            && (|s.projects[p].statuses| > 0 ==>
                  && r.tasks == s.tasks[k := IssueTask(issue, systemUser)]
                  && r.issueLinks == s.issueLinks[LinkKey(repo, issue.number) := k])
  {
    var p := s.integrations[repo];
    var project := s.projects[p];
    var number := project.taskCounter + 1;
    var counted := s.(projects := s.projects[p := project.(taskCounter := number)]);
    if |project.statuses| == 0 then counted
    else
      var k := TaskKey(p, number);
      counted.(tasks := s.tasks[k := IssueTask(issue, systemUser)],
               issueLinks := s.issueLinks[LinkKey(repo, issue.number) := k])
  }

  /** An `opened` event for an unlinked issue of a project without statuses
      throws at `getStatuses().get(0)`, after the counter step: such a
      delivery creates no task and no link, whoever the system user is. */
  function IssueFails(s: Store, data: Payload): (r: bool)
    requires Valid(s)
    ensures r ==> forall u: UserId :: HandleIssue(s, u, data).tasks == s.tasks && HandleIssue(s, u, data).issueLinks == s.issueLinks
  {
    && data.repository in s.integrations
    && data.action == "opened"
    && LinkKey(data.repository, data.issue.number) !in s.issueLinks
    && |s.projects[s.integrations[data.repository]].statuses| == 0
  }

  /** The switch of `handleIssue` for an issue already linked to task `k`. */
  function IssueAction(s: Store, project: ProjectId, link: LinkKey, k: TaskKey, data: Payload): (r: Store)
    requires project in s.projects
    ensures r.installations == s.installations && r.integrations == s.integrations
    ensures r.pullLinks == s.pullLinks && r.projects == s.projects
    ensures data.action == "deleted" ==> r.issueLinks == s.issueLinks - {link} && r.tasks == s.tasks - {k}
    ensures data.action != "deleted" ==>
              && r.issueLinks == s.issueLinks
              && r.tasks.Keys == s.tasks.Keys
              && (forall k' :: k' in s.tasks && k' != k ==> r.tasks[k'] == s.tasks[k'])
              && (k in s.tasks ==> IssueEffect(s.tasks[k], r.tasks[k], s, project, data))
  {
    match data.action
    case "edited" => EditTask(s, k, Rename(data.issue.title, data.issue.body))
    case "closed" => EditTask(s, k, ChangeStatus(false))
    case "reopened" => EditTask(s, k, ChangeStatus(true))
    case "deleted" => s.(issueLinks := s.issueLinks - {link}, tasks := s.tasks - {k})
    case "assigned" => AssignTask(s, project, k, data.assigneeLogin)
    case "unassigned" => EditTask(s, k, Assign(None))
    case _ => s
  }

  /** The members whose ids an `assigned` event may store for `project`. */
  predicate AssignableIn(s: Store, project: ProjectId, user: UserId)
    requires project in s.projects
  {
    Member(s.projects[project], user) != -1
  }

  /** `handleIssue`. Without an integration for the repository nothing
      changes. `opened` for an unlinked issue creates a task under a fresh
      number and links it. For a linked issue, `deleted` removes the link and
      the task; every other action keeps the links and the projects and
      changes at most the linked task: `edited` copies title and body,
      `closed` and `reopened` move it to the final or the begin lane,
      `assigned` stores only a member of the project, `unassigned` clears the
      assignee, and any other action changes nothing. An unlinked issue
      under any action but `opened` changes nothing. */
  function HandleIssue(s: Store, systemUser: UserId, data: Payload): (r: Store)
    requires Valid(s)
    ensures r.installations == s.installations && r.integrations == s.integrations && r.pullLinks == s.pullLinks
    ensures data.repository !in s.integrations ==> r == s
    ensures data.repository in s.integrations ==>
              var link := LinkKey(data.repository, data.issue.number);
              var p := s.integrations[data.repository];
              && (link !in s.issueLinks && data.action != "opened" ==> r == s)
              && (link !in s.issueLinks && data.action == "opened" ==>
                    var k := TaskKey(p, s.projects[p].taskCounter + 1);
                    && k !in s.tasks
                    && (|s.projects[p].statuses| > 0 ==>
                          r.tasks == s.tasks[k := IssueTask(data.issue, systemUser)] && r.issueLinks == s.issueLinks[link := k])
                    && (|s.projects[p].statuses| == 0 ==> r.tasks == s.tasks && r.issueLinks == s.issueLinks)
                    && r.projects == s.projects[p := s.projects[p].(taskCounter := s.projects[p].taskCounter + 1)])
              && (link in s.issueLinks ==> r.projects == s.projects)
              && (link in s.issueLinks && data.action == "deleted" ==>
                    r.issueLinks == s.issueLinks - {link} && r.tasks == s.tasks - {s.issueLinks[link]})
              && (link in s.issueLinks && data.action != "deleted" ==>
                    var k := s.issueLinks[link];
                    && r.issueLinks == s.issueLinks
                    && r.tasks.Keys == s.tasks.Keys
                    && (forall k' :: k' in s.tasks && k' != k ==> r.tasks[k'] == s.tasks[k'])
                    && (k in s.tasks ==> IssueEffect(s.tasks[k], r.tasks[k], s, p, data)))
  {
    if data.repository !in s.integrations then s
    else
      var link := LinkKey(data.repository, data.issue.number);
      if data.action == "opened" && link !in s.issueLinks then
        OpenIssue(s, systemUser, data.repository, data.issue)
      else if link !in s.issueLinks then s
      else IssueAction(s, s.integrations[data.repository], link, s.issueLinks[link], data)
  }

  /** How an event other than `deleted` leaves the task `after` of a linked
      issue or pull request, given the task `before`. */
  ghost predicate IssueEffect(before: Task, after: Task, s: Store, p: ProjectId, data: Payload)
    requires p in s.projects
  {
    match data.action
    case "edited" => after == before.(name := data.issue.title, description := data.issue.body)
    case "closed" => after == before.(lane := FinalLane)
    case "reopened" => after == before.(lane := BeginLane)
    case "assigned" => after == AssignedBy(before, s, p, data.assigneeLogin)
    case "unassigned" => after == before.(assignee := None)
    case _ => after == before
  }

  // ---------------------------------------------------------------------
  // Pull requests

  /** `closed` or `reopened` for the linked request `link`. */
  function PullClosedOrReopened(s: Store, link: LinkKey, pull: PullLink, pr: PullRequest): (r: Store)
    requires link in s.pullLinks && pull == s.pullLinks[link]
    ensures r.(tasks := s.tasks, pullLinks := s.pullLinks) == s
    ensures r.pullLinks == s.pullLinks[link := pull.(merged := pull.merged || pr.merged)]
    ensures r.tasks.Keys == s.tasks.Keys
    ensures forall k' :: k' in s.tasks && k' != pull.task ==> r.tasks[k'] == s.tasks[k']
    ensures pull.task in s.tasks ==> r.tasks[pull.task] == s.tasks[pull.task].(lane := if pr.state == "open" then BeginLane else FinalLane)
  {
    assert pr.merged ==> s.pullLinks[link := pull.(merged := true)] == s.pullLinks[link := pull.(merged := pull.merged || pr.merged)];
    assert !pr.merged ==> s.pullLinks == s.pullLinks[link := pull.(merged := pull.merged || pr.merged)];
    var s1 := if pr.merged then s.(pullLinks := s.pullLinks[link := pull.(merged := true)]) else s;
    EditTask(s1, pull.task, ChangeStatus(pr.state == "open"))
  }

  /** The task `t` after an `assigned` event naming `login` in a repository
      of `project`: the assignee becomes the user of the login's first
      installation when that user is a member of the project; otherwise the
      task stays as it was. */
  ghost function AssignedBy(t: Task, s: Store, project: ProjectId, login: string): Task
    requires project in s.projects
  {
    match InstallationOf(s, login)
    case Some(inst) => if AssignableIn(s, project, inst.user) then t.(assignee := Some(inst.user)) else t
    case None => t
  }

  /** `assigned` for a task `k` linked from a repository of `project`: the
      installation owner of the login, when a project member, becomes the
      assignee. */
  function AssignTask(s: Store, project: ProjectId, k: TaskKey, login: string): (r: Store)
    requires project in s.projects
    ensures r.(tasks := s.tasks) == s && r.tasks.Keys == s.tasks.Keys
    ensures forall k' :: k' in s.tasks && k' != k ==> r.tasks[k'] == s.tasks[k']
    ensures k in s.tasks ==> r.tasks[k] == AssignedBy(s.tasks[k], s, project, login)
    ensures k in s.tasks && r.tasks[k] != s.tasks[k] ==>
              r.tasks[k].assignee.Some? && AssignableIn(s, project, r.tasks[k].assignee.value)
  {
    match AssigneeFor(s, project, login)
    case Some(user) => EditTask(s, k, Assign(Some(user)))
    case None => s
  }

  /** `handlePullRequest`. Without an integration or a link for the request
      nothing changes; a request never creates a task or a link. `closed` and
      `reopened` record a merge without ever undoing an earlier one and move
      the task to the begin lane when the request's state is "open", to the
      final lane otherwise; `assigned` stores only a member of the project
      and `unassigned` clears the assignee; `edited` copies title and body to
      the link and leaves the task alone; any other action changes nothing. */
  function HandlePullRequest(s: Store, data: Payload): (r: Store)
    requires Valid(s)
    ensures r.installations == s.installations && r.integrations == s.integrations
    ensures r.projects == s.projects && r.issueLinks == s.issueLinks
    ensures r.tasks.Keys == s.tasks.Keys && r.pullLinks.Keys == s.pullLinks.Keys
    ensures forall l :: l in s.pullLinks ==> r.pullLinks[l].task == s.pullLinks[l].task
    ensures forall l :: l in s.pullLinks && s.pullLinks[l].merged ==> r.pullLinks[l].merged
    ensures var link := LinkKey(data.repository, data.pullRequest.number);
            data.repository !in s.integrations || link !in s.pullLinks ==> r == s
    ensures var link := LinkKey(data.repository, data.pullRequest.number);
            data.repository in s.integrations && link in s.pullLinks ==>
              var pull, k, p := s.pullLinks[link], s.pullLinks[link].task, s.integrations[data.repository];
              && (forall l :: l in s.pullLinks && l != link ==> r.pullLinks[l] == s.pullLinks[l])
              && (forall k' :: k' in s.tasks && k' != k ==> r.tasks[k'] == s.tasks[k'])
              && (data.action in {"closed", "reopened"} ==>
                    && r.pullLinks[link] == pull.(merged := pull.merged || data.pullRequest.merged)
                    && (k in s.tasks ==> r.tasks[k] == s.tasks[k].(lane := if data.pullRequest.state == "open" then BeginLane else FinalLane)))
              && (data.action == "edited" ==>
                    r.tasks == s.tasks && r.pullLinks[link] == pull.(title := data.pullRequest.title, description := data.pullRequest.body))
              && (data.action !in {"closed", "reopened", "edited"} ==> r.pullLinks == s.pullLinks)
              && (data.action in {"assigned", "unassigned"} && k in s.tasks ==> IssueEffect(s.tasks[k], r.tasks[k], s, p, data))
              && (data.action !in {"closed", "reopened", "edited", "assigned", "unassigned"} ==> r == s)
  {
    if data.repository !in s.integrations then s
    else
      var link := LinkKey(data.repository, data.pullRequest.number);
      if link !in s.pullLinks then s
      else
        var pull := s.pullLinks[link];
        var project := s.integrations[data.repository];
        match data.action
        case "closed" => PullClosedOrReopened(s, link, pull, data.pullRequest)
        case "reopened" => PullClosedOrReopened(s, link, pull, data.pullRequest)
        case "assigned" => AssignTask(s, project, pull.task, data.assigneeLogin)
        case "unassigned" => EditTask(s, pull.task, Assign(None))
        case "edited" =>
          s.(pullLinks := s.pullLinks[link := pull.(title := data.pullRequest.title, description := data.pullRequest.body)])
        case _ => s
  }

  // ---------------------------------------------------------------------
  // Dispatch

  /** `handleWebhook`: routes on the event name. A push fails when its handler
      does, an issue event when opening a task throws, every other event is
      accepted, and an unknown event changes nothing. */
  function HandleWebhook(s: Store, systemUser: UserId, event: string, data: Payload): (o: Outcome)
    requires Valid(s)
    ensures o.reply != Unauthorized
    ensures event != "push" && event != "issues" ==> o.reply == Accepted
    ensures event == "issues" ==> (o.reply == Failed <==> IssueFails(s, data))
    ensures event == "installation_repositories" ==> o.store == HandleInstallationRepositories(s, data)
    ensures event == "issues" ==> o.store == HandleIssue(s, systemUser, data)
    ensures event == "push" ==> o == HandlePush(s, data)
    ensures event == "installation" ==> o.store == HandleInstallation(s, data)
    ensures event == "pull_request" ==> o.store == HandlePullRequest(s, data)
    ensures event !in {"installation_repositories", "issues", "push", "installation", "pull_request"} ==> o.store == s
  {
    match event
    case "installation_repositories" => Outcome(HandleInstallationRepositories(s, data), Accepted)
    case "issues" => Outcome(HandleIssue(s, systemUser, data), if IssueFails(s, data) then Failed else Accepted)
    case "push" => HandlePush(s, data)
    case "installation" => Outcome(HandleInstallation(s, data), Accepted)
    case "pull_request" => Outcome(HandlePullRequest(s, data), Accepted)
    case _ => Outcome(s, Accepted)
  }

  /** A delivery: an unauthorized one is refused and changes nothing, an
      authorized one is dispatched. */
  function Deliver(s: Store, systemUser: UserId, hmacHex: string -> string, token: string, body: string,
                   event: string, data: Payload): (o: Outcome)
    requires Valid(s)
    ensures o.reply == Unauthorized <==> !IsAuthorized(hmacHex, token, body)
    ensures !IsAuthorized(hmacHex, token, body) ==> o.store == s
  {
    if !IsAuthorized(hmacHex, token, body) then Outcome(s, Unauthorized)
    else HandleWebhook(s, systemUser, event, data)
  }
}
